=== FILE: README.md ===
# governant: rule aggregation and decision logic in Dafny

This project models the Python core of *governant*, a deployment-governance
tool. The tool takes a deployment or pull-request context and the rules of
one environment, and decides whether the action is allowed. It also lists
the reasons when it is not. The model covers these parts:

- **Fallback rule checker** (`FallbackValidator`). It runs six independent
  checks: approvals, branch, ticket, tests, sign-off and rate limit. Each
  check yields at most one tagged violation. `allowed` is true exactly when
  there are none.
- **Environment compliance check** (`EnvironmentCheck`). There are two gates,
  for an unknown and for a disabled environment. After them come the branch,
  ticket and sign-off checks over the current branch, pull-request title and
  last commit message. Those three texts are parameters.
- **GitHub event normaliser and decision** (`EventHandler`). It maps a
  `pull_request` or `push` payload to the policy input document. It then
  combines the evaluator's two answers into the final decision.
- **Governance rule store and validators** (`Governance`, `Validators`). The
  store is a keyed store with add, remove, get, list and validate. The
  validators check severity and rule data.
- **Policy engine and registry** (`PolicyCore`). It covers:
  - backend selection;
  - `data.` entrypoints;
  - unwrapping of `opa eval` JSON;
  - coercion of results to bool or list;
  - the named-engine registry and its index loader.
- **Thin opa-wasm engine** (`OpaWasm`). It normalises entrypoints and
  coerces results.
- **Command lines** (`GovernantCli`, `OpaWasmCli`). This covers:
  - locating the command in argv;
  - option precedence;
  - the registry preconditions;
  - exit codes.

Shared foundations:
- `Wrappers` holds `Option` and `Result`.
- `Text` holds string helpers: prefix and suffix tests, substring search,
  `str.replace`, ASCII lower-casing and `str.join`.
- `PyJson` holds JSON-like values with the Python operations the sources
  apply to them. These are truthiness, `dict.get`, subscripting, `in`,
  comparison with a number, `len` and `int()`.

A Python exception is a value of `Exc`. Operations return `Py<T>`, which is
`Result<T, Exc>`, and propagate with `:-` in source order. So the first
exception Python would raise is the one the model returns. Some parts of the
system are parameters, never interpreted:
- regular expressions: whether a pattern compiles, `re.match`, `re.search`
  and `findall`;
- `str()` of a non-string and `int()` of a string;
- everything the machine supplies:
  - whether a file exists;
  - whether the opa-wasm runtime imports;
  - what a run of `opa eval` exits with and prints;
  - what an index file holds;
  - what the external evaluator answers.

The model keeps these behaviours of the Python code, which a reader might
expect to be otherwise:
- **Truthiness.** Rule flags and reported values are judged by Python
  truthiness, not strict booleans. A `tests` value of `"true"` or `1`
  satisfies `tests_passed`.
- **Approvals.** They count the length of the approver list, not distinct
  approvers.
- **Tickets.** The fallback checker matches one `ticket_id` against the pattern with `re.match`,
  not a list of ticket references. A pattern that does not compile rejects
  the ticket rather than producing a schema violation.
- **Environment key.** `validate_input` reads the environment from the
  input's `env` key.
- **Environment compliance.** A ticket pattern that does not compile raises.
- **Raised exceptions.** A malformed value (a non-numeric limit, a non-dict
  where a dict is expected) raises a Python exception rather than degrading
  to a default. Only `validate_input` turns such an exception into a denial.
  Elsewhere it propagates.
- **Branch refs.** The ref is compared after removing every occurrence of
  `refs/heads/`, and only when `ref_type` is `branch`.

## Model

| member | source | states |
|---|---|---|
| FallbackValidator.ValidTicket | scripts/validate_policy.py:164-184 | an empty ticket is invalid; a non-empty ticket with an empty pattern is valid; a string pattern that does not compile gives false without raising; a true verdict implies a non-empty ticket; the only exception is TypeError for a non-string operand |
| FallbackValidator.RunCheck | scripts/validate_policy.py:119-160 | a violation a check returns carries that check's own tag |
| FallbackValidator.RunChecksBounded | scripts/validate_policy.py:106-162 | a successful run reports no more violations than checks, each tagged by a check in the list, and every check in the list ran without raising |
| FallbackValidator.RunChecksOrdered | scripts/validate_policy.py:106-162 | checks run in a strictly increasing order report their violations in that order |
| FallbackValidator.RunChecksFired | scripts/validate_policy.py:117-162 | when the run succeeds, a check in the list fires exactly when its tag appears in the result |
| FallbackValidator.RunChecksFirstException | scripts/validate_policy.py:117-162 | the run raises an exception iff some check raises it and every check before that one succeeded |
| FallbackValidator.OrderIsOrdered | scripts/validate_policy.py:119-160 | the source's check order approvals, branch, ticket, tests, sign-off, rate limit is strictly ordered and covers all six checks |
| FallbackValidator.CheckRulesShape | scripts/validate_policy.py:106-162 | `_check_rules` yields at most six violations with pairwise-distinct tags, in the fixed order; every check succeeds and fires exactly when its tag is present |
| FallbackValidator.ApprovalsInsufficientIff | scripts/validate_policy.py:119-124 | `approvals.insufficient` fires iff the required count is a positive number and the approver list, duplicates included, is shorter |
| FallbackValidator.RefDeniedIff | scripts/validate_policy.py:126-134 | `ref.denied` fires iff a branch list is configured, `ref_type` is `branch`, and the ref with every `refs/heads/` removed is not in the list |
| FallbackValidator.RefDeniedForBranchList | scripts/validate_policy.py:127-134 | for a configured list of names and a ref `refs/heads/B`, the branch is denied iff `B` is not in the list |
| FallbackValidator.TicketMissingIff | scripts/validate_policy.py:136-141 | `ticket.missing` fires iff `require_ticket` is truthy and `_valid_ticket` rejects the ticket |
| FallbackValidator.TestsAndSignoffIff | scripts/validate_policy.py:143-153 | `tests.failed` and `signoff.missing` fire iff the rule flag is truthy and the reported value is missing or falsy |
| FallbackValidator.RateLimitIff | scripts/validate_policy.py:155-160 | `rate_limit.exceeded` fires iff a positive limit is set and today's count is strictly greater; equal passes |
| FallbackValidator.ValidateInput | scripts/validate_policy.py:66-104 | `allowed` holds iff the violation list is empty; the input is echoed; the error flag and the missing timestamp go together; an error yields exactly one error entry and no other path yields one |
| FallbackValidator.ValidateInputKnown | scripts/validate_policy.py:87-92 | for a known environment whose rules check cleanly, the violations are exactly the rule violations and `allowed` says there are none |
| FallbackValidator.ValidateInputUnknown | scripts/validate_policy.py:93-94 | an environment absent from well-shaped policy data gives `allowed` false with exactly one "Unknown environment" entry |
| FallbackValidator.ValidateInputException | scripts/validate_policy.py:98-104 | any exception during lookup or checking gives `allowed` false, `error` true and that exception as the only entry |
| EnvironmentCheck.BranchOk | src/governant/validation/environment.py:64-75 | a missing or null `allowed_branches` never fails the branch check |
| EnvironmentCheck.ValidateEnvironment | src/governant/validation/environment.py:37-119 | an environment missing from `environments` returns false before any rule; a known environment whose `enabled` is missing or falsy returns false |
| EnvironmentCheck.ValidateEnvironmentConjunction | src/governant/validation/environment.py:61-119 | past the gates, with well-typed rules, the result is exactly the conjunction of the branch, ticket and sign-off verdicts; all checks run, with no early exit |
| EnvironmentCheck.ApprovalsAndTestsNeverDecide | src/governant/validation/environment.py:77-101 | changing `approvals_required` between numbers, or changing `tests_passed` at all, leaves the verdict unchanged |
| EventHandler.ExtractTicketRefs | src/ghprotect/handler.py:12-25 | the references are found iff the pattern is a string; a pattern that compiles gives `findall` of it over the title, a newline and the body; one that does not compile is replaced by the literal pattern `^.*$` over the same text |
| EventHandler.ApprovedLogins | src/ghprotect/handler.py:28-35 | no more logins than reviews, and every collected login is truthy |
| EventHandler.ApprovedLoginsAppend | src/ghprotect/handler.py:31-35 | collecting over concatenated review lists concatenates the results, so logins come out in review order |
| EventHandler.ApprovedLoginsSingle | src/ghprotect/handler.py:33-34 | one review contributes login L iff its state is `APPROVED`, its user is a dict, the user's login is L, and L is truthy |
| EventHandler.PushAgreesWithPullRequest | src/ghprotect/handler.py:53-90 | a push to `refs/heads/X` selects the same environment as a pull request into `X`, so both tables map main to production, develop/development/dev to staging and all else to development |
| EventHandler.PushOutsideHeadsIsDevelopment | src/ghprotect/handler.py:83-90 | a pushed ref outside `refs/heads/` selects development |
| EventHandler.GetEach | src/ghprotect/handler.py:101 | it succeeds iff every commit is a dict, and then entry i is commit i's `message`, or the default when it has none |
| EventHandler.PullRequestInput | src/ghprotect/handler.py:53-81 | a pull request's document has the head branch as `ref`, the environment of its base branch, the tickets `_extract_ticket_refs` finds in title and body with that environment's pattern, the approving logins, truthy `checks.tests` and `signed_off`, and `int()` of `deployments_today` |
| EventHandler.PullRequestInputIff | src/ghprotect/handler.py:53-81 | a pull request yields a document iff it fits that description, and then exactly that one |
| EventHandler.PushInput | src/ghprotect/handler.py:83-106 | a push's document has the pushed ref as `ref` and the environment it selects, the tickets found in the first commit's message and in all messages joined by newlines, no approvers, false tests and sign-off, and zero deployments |
| EventHandler.PushInputIff | src/ghprotect/handler.py:83-106 | a push yields a document iff every commit is a dict with a string message and the rest of that description fits, and then exactly that one |
| EventHandler.OtherInput | src/ghprotect/handler.py:50-120 | any other event gets production, no tickets or approvers, false flags, zero deployments and `payload.get("ref") or ""` as ref; it succeeds iff the production rules are a dict |
| EventHandler.BuildPolicyInput | src/ghprotect/handler.py:38-137 | the environment is one of the three defaults; `repo_policy` is copied; `repo_environments` defaults when none or empty; a pull request or push document fits its field-by-field description; other events get production with no tickets or approvers |
| EventHandler.PolicyInput.ToJson | src/ghprotect/handler.py:122-137 | the document copies `repo_policy`, and `checks.tests` and `signed_off` are always booleans |
| EventHandler.ViolationsOf | src/ghprotect/handler.py:158-166 | a list answer, or a list under `result`, gives `str()` of each entry in order; a truthy non-list `result` gives its `str()` alone; a falsy one, a dict without `result`, or any other answer gives none |
| EventHandler.ProcessEvent | src/ghprotect/handler.py:140-172 | the message is "Policy passed" iff the final decision allows, and an allowing decision has no violations |
| EventHandler.ProcessEventDecision | src/ghprotect/handler.py:149-172 | a PolicyError from either evaluation denies with its text as the only violation; otherwise the decision allows iff the allow answer is truthy and no violation is reported |
| Governance.NewManager | src/core/governance.py:30-31 | a new store is empty and valid |
| Governance.GetRule | src/core/governance.py:63-72 | a found rule is stored under that id; nothing is found iff no rule has that id |
| Governance.WithoutAppend | src/core/governance.py:57-61 | removal keeps the remaining rules in store order: it distributes over concatenation |
| Governance.AddRule | src/core/governance.py:33-46 | the add succeeds iff the id is fresh; a refused add leaves the store unchanged; a successful add appends the rule; distinct ids are kept |
| Governance.RemoveRule | src/core/governance.py:48-61 | the remove succeeds iff the id is present; a refused remove changes nothing; afterwards the store holds exactly the other rules |
| Governance.RemoveRulePreservesValid | src/core/governance.py:57-61 | removal keeps ids distinct |
| Governance.GetRuleFindsMember | src/core/governance.py:63-72 | with distinct ids, every stored rule is what `get_rule` returns for its id |
| Governance.GetRuleAfterAppend | src/core/governance.py:42-46 | after appending a fresh rule its id finds it and every other id finds what it found before |
| Governance.GetRuleAfterWithout | src/core/governance.py:57-61 | after removing an id it finds nothing and every other id finds what it found before |
| Governance.AddThenGet | src/core/governance.py:42-46 | an add with a fresh id succeeds, `get_rule` then returns the new rule, and other entries are untouched |
| Governance.RemoveThenGet | src/core/governance.py:57-61 | a remove of a present id succeeds, `get_rule` then returns none, and other entries are untouched |
| Governance.EnabledRules | src/core/governance.py:85 | the filter keeps exactly the enabled rules |
| Governance.ListRules | src/core/governance.py:74-85 | `list_rules(False)` is every rule in store order; `list_rules(True)` holds exactly the enabled ones |
| Governance.EnabledRulesAppend | src/core/governance.py:83-85 | the enabled listing keeps store order: it distributes over concatenation |
| Governance.CheckRule | src/core/governance.py:117-135 | a rule reports a violation iff the data is falsy |
| Governance.Validate | src/core/governance.py:87-115 | `valid` is false iff there are violations; truthy data gives none; falsy data gives one violation per enabled rule, in order; disabled rules never contribute |
| Validators.SeverityLevelsSorted | src/utils/validators.py:22 | the levels are listed in the sorted order the message prints |
| Validators.RequiredFieldsSorted | src/utils/validators.py:38-42 | the required field names are in sorted order |
| Validators.ValidateSeverity | src/utils/validators.py:7-24 | valid iff there is no message; a non-string fails with "Severity must be a string, got" and its type name; a string is valid iff its lower-case form is one of the four levels |
| Validators.SeverityIgnoresCase | src/utils/validators.py:21-24 | two strings with the same lower-case form are accepted or rejected together |
| Validators.SeverityAcceptsEveryLevel | src/utils/validators.py:21-24 | every level in any letter case is accepted with no message |
| Validators.Missing | src/utils/validators.py:38-42 | lists exactly the required names absent from the keys, sorted whenever the required list is sorted |
| Validators.ValidateRuleData | src/utils/validators.py:27-56 | valid iff there is no message; valid iff all three fields are present, the severity is valid, and name and description are non-blank strings |
| Validators.MissingFieldsReported | src/utils/validators.py:38-42 | missing fields are reported first, by exactly the names missing, in sorted order without repeats |
| Validators.SeverityCheckedBeforeText | src/utils/validators.py:44-47 | with all fields present, an invalid severity is reported with the severity validator's message whatever the texts are |
| Validators.NameCheckedBeforeDescription | src/utils/validators.py:49-54 | a blank or non-string name is reported before the description is looked at |
| PolicyCore.ExtractOpaJsonValue | src/governant/core.py:66-85 | non-dict input comes back unchanged; a non-list `result` is returned as is; a missing or empty `result` returns the whole input |
| PolicyCore.ExtractEnvelope | src/governant/core.py:74-82 | the `result[0].expressions[0].value` of the envelope is returned whenever it is not null |
| PolicyCore.ExtractFallsBack | src/governant/core.py:83-85 | a `result` list without a usable first value returns the whole input |
| PolicyCore.WasmCtor | src/governant/core.py:101-118 | a WASM backend exists only for a `.wasm` artifact; any other artifact raises PolicyError |
| PolicyCore.CliCtor | src/governant/core.py:131-135 | the CLI backend is built iff the artifact exists and `opa` is on the path; otherwise PolicyError |
| PolicyCore.SelectBackend | src/governant/core.py:208-224 | a mode outside auto/wasm/cli after lower-casing raises PolicyError; auto with a non-`.wasm` artifact uses the CLI backend, and so does auto when WASM construction raises PolicyError; a WASM backend implies a `.wasm` artifact |
| PolicyCore.NewEngine | src/governant/core.py:203-206 | the engine keeps its artifact and package and exists iff a backend was selected |
| PolicyCore.Ep | src/governant/core.py:226-227 | the entrypoint starts with `data.` and is exactly `data.`, the package, a dot and the rule long |
| PolicyCore.FallbackMessage | src/governant/core.py:169 | the message is the error text if any, else the output, else the exit-code sentence; it is never empty |
| PolicyCore.ReportedErrors | src/governant/core.py:165 | the messages can be joined iff every error entry is a dict whose message is a string |
| PolicyCore.CliFailureAsWritten | src/governant/core.py:160-170 | as written, a failed run raises PolicyError with the fallback text, the error text when there is one |
| PolicyCore.CliFailure | src/governant/core.py:160-170 | as intended, a failed run raises PolicyError: "opa eval error:" with the joined messages when output carries an error report, the fallback text otherwise |
| PolicyCore.ReportSwallowed | src/governant/core.py:160-170 | for exit 1, empty error text and output `{"errors":[{"message":"x"}]}`, the code as written raises the raw output while the intended message is `opa eval error: x` |
| PolicyCore.CliEvaluate | src/governant/core.py:137-173 | a failed run of `opa eval` raises its exception; a non-zero exit raises the corrected failure (see Left out); on exit 0 an empty output is `{}`, output that does not parse raises the decoding error, and parsed output is unwrapped by `_extract_opa_json_value` |
| PolicyCore.CorrectionOnlyRewordsReports | src/governant/core.py:160-170 | the as-written and the corrected failure are both PolicyError, and equal whenever standard output carries no joinable error report |
| PolicyCore.BackendEvaluate | src/governant/core.py:120-139 | both backends refuse an entrypoint outside `data.` with PolicyError |
| PolicyCore.EngineEntrypointsAccepted | src/governant/core.py:226-240 | the engine's own entrypoints always pass the prefix check and reach the backend |
| PolicyCore.Allow | src/governant/core.py:232-234 | `allow` succeeds iff the evaluation does, and is the truthiness of the answer |
| PolicyCore.ViolationList | src/governant/core.py:238-240 | a list stays unchanged, null becomes empty, anything else becomes a singleton |
| PolicyCore.ViolationListIdempotent | src/governant/core.py:238-240 | normalising a normalised list changes nothing |
| PolicyCore.Violations | src/governant/core.py:236-240 | `violations` succeeds iff the evaluation does, and is its list normalisation |
| PolicyCore.DecisionOf | src/governant/core.py:242-243 | the decision succeeds iff both `allow` and `violations` do; an `allow` failure is raised first; on success the decision holds both results |
| PolicyCore.Register | src/governant/core.py:253-256 | a taken name raises PolicyError and keeps the old engine; otherwise exactly that name is added, with its artifact and package, and other engines stay |
| PolicyCore.GetEngine | src/governant/core.py:279-282 | a name is found iff registered; an unknown name raises "Policy not found" |
| PolicyCore.RegisterThenGet | src/governant/core.py:253-282 | a registered name is found with its package, and other names find what they found before |
| PolicyCore.RegisterEntry | src/governant/core.py:272-277 | a registered entry is a dict with a string name that is now registered, and earlier engines stay |
| PolicyCore.EntryModeDefaultsToAuto | src/governant/core.py:276 | an index entry without `mode` registers in mode `auto` |
| PolicyCore.LoadFromIndex | src/governant/core.py:258-277 | a missing index raises "Index not found"; a non-list index raises "Index JSON must be a list of objects" |
| PolicyCore.RegisterAllExtends | src/governant/core.py:272-277 | loading only adds: engines registered before remain, even when an entry fails |
| PolicyCore.RegisterAllRegistersEach | src/governant/core.py:272-277 | a load that raises nothing has registered every entry's name |
| OpaWasm.NormEntry | src/opawasm/main.py:39-49 | the result always starts with `data.`; a prefixed entry is unchanged; an unprefixed one grows by exactly the prefix |
| OpaWasm.NormEntryIdempotent | src/opawasm/main.py:45-46 | normalising twice is normalising once |
| OpaWasm.NormEntryUnprefixed | src/opawasm/main.py:47-49 | an unprefixed entry becomes `data.` followed by the entry with every `/` turned into `.` |
| OpaWasm.NormEntryDotted | src/opawasm/main.py:47-49 | after the prefix, no `/` remains and every other character is where it was |
| OpaWasm.AsBool | src/opawasm/main.py:61-86 | a raw bool comes back unchanged; an answer without a recognised shape falls back to truthiness |
| OpaWasm.AsBoolResultShape | src/opawasm/main.py:73-78 | `[{"result": b}, ...]` gives b, including false in a non-empty list |
| OpaWasm.AsBoolExpressionsShape | src/opawasm/main.py:79-84 | `[{"expressions": [{"value": b}, ...]}, ...]` gives b when there is no boolean `result` |
| OpaWasm.AsList | src/opawasm/main.py:88-91 | a list stays unchanged and anything else becomes a singleton, so only `[]` gives no entries |
| OpaWasm.Evaluate | src/opawasm/main.py:179-186 | an entrypoint already prefixed with `data.` reaches the policy unchanged; any other is normalised first (its result is stated by `OpaWasm.EvaluateSlashForm`) |
| OpaWasm.EvaluateSlashForm | src/opawasm/main.py:179-180 | an unprefixed entrypoint reaches the policy as `data.` followed by the entry with every `/` turned into `.`, so `github/deploy/allow` evaluates `data.github.deploy.allow` |
| OpaWasm.Allow | src/opawasm/main.py:189-190 | `allow` succeeds iff the fixed allow entrypoint does, and coerces its answer with `as_bool` |
| OpaWasm.Violations | src/opawasm/main.py:192-195 | `violations` succeeds iff the fixed violations entrypoint does, and wraps a non-list answer as a singleton |
| OpaWasmCli.ExitForAllow | src/opawasm/cli.py:22-26 | without strict exit the code is 0; with it, 0 iff allowed and otherwise 2 |
| OpaWasmCli.Caught | src/opawasm/cli.py:54-56 | a PolicyError exits 1 and any other exception escapes |
| OpaWasmCli.Setup | src/opawasm/cli.py:44-46 | the command reaches evaluation iff the engine builds and the input reads |
| OpaWasmCli.CmdAllow | src/opawasm/cli.py:43-56 | the exit code is 0, 1 or 2; an exception from setup or from `allow` is handled by the `except PolicyError` clause, so a PolicyError exits 1 and any other escapes; on success the code is the allow exit code |
| OpaWasmCli.CmdViolations | src/opawasm/cli.py:59-72 | the exit code is 0, 1 or 3; an exception from setup or from `violations` exits 1 if it is a PolicyError and escapes otherwise; on success it is 3 iff strict exit is set and the list is non-empty, and 0 otherwise |
| OpaWasmCli.StrictViolationsExitZeroOnlyOnEmptyList | src/opawasm/cli.py:67-69 | under strict exit the command exits 0 iff the raw answer is the empty list; a null answer counts as a violation |
| OpaWasmCli.CmdEval | src/opawasm/cli.py:75-85 | the exit code is 0 or 1, and 0 iff setup and evaluation succeed; an exception from either exits 1 if it is a PolicyError and escapes otherwise |
| GovernantCli.FirstCommand | src/governant/cli.py:36-38 | a found position holds a known command with none before it; when nothing is found, no token is a known command |
| GovernantCli.SplitArgv | src/governant/cli.py:31-41 | `left + [cmd] + right` is argv, `cmd` is known, and `left` holds no known command; it raises PolicyError with the "No command found" message iff argv holds no known command |
| GovernantCli.SplitArgvRoundTrip | src/governant/cli.py:36-38 | splitting `left + [cmd] + right` for a command-free `left` gives back exactly those parts |
| GovernantCli.Pick | src/governant/cli.py:64-81 | a value after the command beats one before it, which beats the environment-variable fallback |
| GovernantCli.ParseGlobals | src/governant/cli.py:83-91 | each option is picked by that precedence; the mode is `auto` unless a non-empty mode is given |
| GovernantCli.BuildRegistry | src/governant/cli.py:106-117 | `version` gives an empty registry; without an index, a missing artifact or package raises; without an index, the one engine is named after `--policy` or `default` |
| GovernantCli.RunCommand | src/governant/cli.py:145-169 | `version` always succeeds; an index without `--policy` raises the "must specify --policy" PolicyError |
| GovernantCli.ExitFor | src/governant/cli.py:171-176 | a PolicyError exits 2 and any other exception exits 3 |
| GovernantCli.MainExit | src/governant/cli.py:120-176 | the exit code is 0, 2 or 3; with no command it is 0 when argv is empty or asks for help and 2 otherwise; with a command it is 0 iff the command succeeds, and the exception's code when it raises |
| GovernantCli.VersionAlwaysSucceeds | src/governant/cli.py:124-148 | `version` placed after any command-free prefix exits 0 whatever the options |

## Left out

- Python's argparse is not modelled. The options on each side of the
  command arrive already parsed. So are the `-h` exit of the command
  parser, the `--mode` choices error and the required `--entrypoint` error.
- Printing, timestamps and logging are left out:
  - `datetime.utcnow` in `validate` and in the rule dataclass;
  - the fixed timestamp string is kept as a constant.
- File reading, standard input, temporary files and the bundle tarball are
  host parameters.
- `_load_policy` in `src/opawasm/main.py` probes an opa-wasm API by name. It
  is not modelled: the loaded policy's `evaluate` is a parameter. The
  `TypeError` retry with reversed arguments is part of that parameter.
- `cmd_version` and `__version__` are not modelled; `version` prints a fixed
  marker.
- `evaluate_policy`, which `src/ghprotect/handler.py` imports, is not defined
  in `src/opawasm/main.py`. The evaluator is a parameter of `ProcessEvent`.
- The WASM loading in `scripts/validate_policy.py` and its `main` are not
  part of this model; only the fallback checker is.
- The violation strings of `_check_rules` and `validate_input` are represented
  by their bracketed tag and the values they interpolate, not by the
  formatted text.
- Floating-point numbers are not modelled; JSON numbers are integers.
- Regular-expression semantics are uninterpreted parameters: compiling,
  `re.match`, `re.search` and `findall`. `findall` is assumed to return
  strings, so a pattern with groups yields group strings.
- Dict iteration order is not modelled (`map`). It is unobservable at the two
  places the source iterates a possibly-dict value: a non-empty dict's first
  key is a string and its `.get` raises at once.
- `src/core/governance.py` (lines 1, 34, 49, 64, 75, 88, 118) and
  `src/utils/validators.py` (line 1) open their docstrings with two quotes
  instead of three (`""Core governance functionality."""`). An empty
  string followed by a name is a syntax error, so neither module imports
  as written. `Governance` and `Validators` model the code
  as if each of those docstrings opened with three quotes, with every function
  body as shown.
- The ticket pattern `^.*$` that `src/ghprotect/handler.py` uses as the
  default (lines 73, 98, 115) and as the fallback for a pattern that does
  not compile (line 19) is compiled without `re.MULTILINE`. Over the text
  `title + "\n" + body` it finds nothing when the body is non-empty, and
  only the title when the body is empty, although the comment at line 18
  says it accepts anything. Regular expressions are uninterpreted here, so
  the model passes the pattern through unchanged and does not predict
  what `findall` returns.
- Text.Lower: ASCII-only lower-casing. This is exact for the four severity
  words, but not for every Unicode string `str.lower` handles.
- PolicyCore.RegisterEntry: an index entry whose name, artifact or package
  is not a string is refused with TypeError, because the model's registry
  is keyed by strings and its engines hold string artifacts and packages.
  Python instead accepts any hashable name as a key, formats a non-string
  package into the entrypoint (`data.5.allow`), and fails on a non-string
  artifact only where a backend calls `artifact.endswith`
  (src/governant/core.py:112, 143, 219).
- PolicyCore.CliEvaluate: a failed `opa eval` raises the corrected
  `PolicyCore.CliFailure`, not the code's own `PolicyCore.CliFailureAsWritten`
  (see Findings). The two are both PolicyError and differ only in the
  message, which can differ only when standard output carries an error
  report whose messages can be joined;
  `PolicyCore.CorrectionOnlyRewordsReports` states this.
- GovernantCli.RunCommand: its contract covers `version` and the missing
  `--policy` error only. The per-command results follow the engine functions
  they call.
- EventHandler.ProcessEvent: it passes no `repo_environments`, as the source
  does, so the default list is used.

## Findings

| source | as written | input that shows it | evidently intended | confidence | as-written member | corrected member |
|---|---|---|---|---|---|---|
| src/governant/core.py:160-170 | the `PolicyError("opa eval error: ...")` raised for an error report on standard output is inside the `try` whose `except Exception: pass` swallows it, so the raw output or error text is raised instead | `opa eval` exits 1 with empty standard error and standard output `{"errors":[{"message":"x"}]}` | raise `PolicyError("opa eval error: x")` whenever standard output is a JSON object whose `errors` messages can be joined; the `except` should only catch output that does not parse or a report that cannot be joined (a non-dict entry, a non-string message, an `errors` value that is not iterable), which then falls back to the raw text | high, not executed | PolicyCore.CliFailureAsWritten, shown by PolicyCore.ReportSwallowed | PolicyCore.CliFailure |

=== FILE: environment.dfy ===
/** `validate_environment` of `src/governant/validation/environment.py`:
    whether the current branch, pull-request title and last commit meet
    the rules of one environment. The three texts, which the source reads
    from the process environment or from git, are parameters here. */
module EnvironmentCheck {
  import opened Wrappers
  import opened Text
  import opened PyJson

  const SignoffMarker: string := "Signed-off-by:"

  /** `', '.join(v)` succeeds: a list must hold only strings. */
  predicate JoinsAsText(v: Json) {
    v.JList? ==> forall i :: 0 <= i < |v.items| ==> v.items[i].JStr?
  }

  /** Check 1: with a configured list, the current branch must be in it.
      The failure message joins the list, which raises for a list that
      holds a non-string. */
  function BranchOk(rules: Json, branch: string): (r: Py<bool>)
    ensures rules.JObj? && Field(rules.fields, "allowed_branches", JNull) == JNull ==> r == Ok(true)
  {
    var allowed :- Get(rules, "allowed_branches", JNull);
    if allowed == JNull then Ok(true)
    else
      var present :- Contains(allowed, JStr(branch));
      if present then Ok(true)
      else if JoinsAsText(allowed) then Ok(false)
      else Err(TypeError)
  }

  /** Check 2: the required-approvals count is only compared with zero
      and reported; it never fails the check, but a non-number raises. */
  function ApprovalsInspected(rules: Json): Py<()> {
    var required :- Get(rules, "approvals_required", JInt(0));
    var _ :- Gt(required, JInt(0));
    Ok(())
  }

  /** Check 3: a required ticket with a non-empty pattern must be found
      by `re.search` in the title; an empty or missing pattern passes.
      A pattern that does not compile raises. */
  function TicketOk(rules: Json, title: string, rt: Runtime): Py<bool> {
    var required :- Get(rules, "require_ticket", JBool(false));
    if !Truthy(required) then Ok(true)
    else
      var pattern :- Get(rules, "ticket_pattern", JStr(""));
      if !Truthy(pattern) then Ok(true)
      else if !pattern.JStr? then Err(TypeError)
      else if !rt.compiles(pattern.s) then Err(RegexError)
      else Ok(rt.search(pattern.s, title))
  }

  /** Check 5: a required sign-off must appear in the last commit message. */
  function SignoffOk(rules: Json, lastCommit: string): Py<bool> {
    var required :- Get(rules, "signed_off", JBool(false));
    if !Truthy(required) then Ok(true)
    else Ok(IsSubstring(SignoffMarker, lastCommit))
  }

  /** `validate_environment`. Two gates (unknown environment, disabled
      environment) return false before any rule; after them every check
      runs and the result is their conjunction. Check 4, `tests_passed`,
      only prints. */
  function ValidateEnvironment(environment: string, policy: map<string, Json>,
                               branch: string, title: string, lastCommit: string,
                               rt: Runtime): (r: Py<bool>)
    ensures var envs := Field(policy, "environments", EmptyObj);
      envs.JObj? && environment !in envs.fields ==> r == Ok(false)
    ensures var envs := Field(policy, "environments", EmptyObj);
      (envs.JObj? && environment in envs.fields && envs.fields[environment].JObj?
       && !Truthy(Field(envs.fields[environment].fields, "enabled", JBool(false)))) ==> r == Ok(false)
  {
    var envs := Field(policy, "environments", EmptyObj);
    var known :- Contains(envs, JStr(environment));
    if !known then Ok(false)
    else
      var config :- Subscript(envs, JStr(environment));
      var enabled :- Get(config, "enabled", JBool(false));
      if !Truthy(enabled) then Ok(false)
      else
        var rules :- Get(config, "rules", EmptyObj);
        CheckRules(rules, branch, title, lastCommit, rt)
  }

  /** The checks after the two gates, all run in order with no early
      exit other than an exception. */
  function CheckRules(rules: Json, branch: string, title: string, lastCommit: string, rt: Runtime): Py<bool> {
    var branchOk :- BranchOk(rules, branch);
    var _ :- ApprovalsInspected(rules);
    var ticketOk :- TicketOk(rules, title, rt);
    var signoffOk :- SignoffOk(rules, lastCommit);
    Ok(branchOk && ticketOk && signoffOk)
  }

  /** Rules whose fields have the types a policy author writes, under
      which no check raises. */
  predicate WellTyped(rules: Json, rt: Runtime) {
    && rules.JObj?
    && var f := rules.fields;
    && (Field(f, "allowed_branches", JNull) == JNull
        || (Field(f, "allowed_branches", JNull).JList?
            && JoinsAsText(Field(f, "allowed_branches", JNull))))
    && IsNumber(Field(f, "approvals_required", JInt(0)))
    && (!Truthy(Field(f, "require_ticket", JBool(false)))
        || !Truthy(Field(f, "ticket_pattern", JStr("")))
        || (Field(f, "ticket_pattern", JStr("")).JStr? && rt.compiles(Field(f, "ticket_pattern", JStr("")).s)))
  }

  /** The rules of an enabled, known environment. */
  predicate EnabledRules(environment: string, policy: map<string, Json>, rules: Json) {
    var envs := Field(policy, "environments", EmptyObj);
    && envs.JObj?
    && environment in envs.fields
    && envs.fields[environment].JObj?
    && Truthy(Field(envs.fields[environment].fields, "enabled", JBool(false)))
    && rules == Field(envs.fields[environment].fields, "rules", EmptyObj)
  }

  /** Past the two gates, with well-typed rules, no check stops the
      others: the result is true exactly when the branch is allowed (or
      unrestricted), the title matches a required non-empty pattern, and
      a required sign-off is present. */
  lemma ValidateEnvironmentConjunction(environment: string, policy: map<string, Json>,
                                       branch: string, title: string, lastCommit: string,
                                       rt: Runtime, rules: Json)
    requires EnabledRules(environment, policy, rules)
    requires WellTyped(rules, rt)
    ensures var f := rules.fields;
      var allowed := Field(f, "allowed_branches", JNull);
      var pattern := Field(f, "ticket_pattern", JStr(""));
      ValidateEnvironment(environment, policy, branch, title, lastCommit, rt) == Ok(
        && (allowed == JNull || JStr(branch) in allowed.items)
        && (!Truthy(Field(f, "require_ticket", JBool(false))) || !Truthy(pattern) || rt.search(pattern.s, title))
        && (!Truthy(Field(f, "signed_off", JBool(false))) || IsSubstring(SignoffMarker, lastCommit)))
  {
    var allowed := Field(rules.fields, "allowed_branches", JNull);
    if allowed != JNull {
      ContainsStringInList(allowed.items, branch);
    }
  }

  /** Changing `approvals_required` (between numbers) and `tests_passed`
      never changes the verdict of the rule checks: those two fields are
      only reported, never enforced. */
  lemma ApprovalsAndTestsNeverDecide(f: map<string, Json>, approvals: Json, tests: Json,
                                     branch: string, title: string, lastCommit: string, rt: Runtime)
    requires IsNumber(approvals)
    requires IsNumber(Field(f, "approvals_required", JInt(0)))
    ensures CheckRules(JObj(f["approvals_required" := approvals]["tests_passed" := tests]), branch, title, lastCommit, rt)
         == CheckRules(JObj(f), branch, title, lastCommit, rt)
  {
    var rules := JObj(f);
    var rules' := JObj(f["approvals_required" := approvals]["tests_passed" := tests]);
    assert Field(rules'.fields, "allowed_branches", JNull) == Field(f, "allowed_branches", JNull);
    assert Field(rules'.fields, "require_ticket", JBool(false)) == Field(f, "require_ticket", JBool(false));
    assert Field(rules'.fields, "ticket_pattern", JStr("")) == Field(f, "ticket_pattern", JStr(""));
    assert Field(rules'.fields, "signed_off", JBool(false)) == Field(f, "signed_off", JBool(false));
    assert BranchOk(rules', branch) == BranchOk(rules, branch);
    assert ApprovalsInspected(rules') == ApprovalsInspected(rules) == Ok(());
    assert TicketOk(rules', title, rt) == TicketOk(rules, title, rt);
    assert SignoffOk(rules', lastCommit) == SignoffOk(rules, lastCommit);
  }
}

=== FILE: governance.dfy ===
/** `src/core/governance.py`: a store of governance rules keyed by id,
    kept in insertion order as the Python dict keeps it, and a validator
    that reports one violation per enabled rule the data breaks. Rule
    timestamps and the report's timestamp come from the clock and are
    left to the caller. */
module Governance {
  import opened Wrappers
  import opened PyJson

  /** `GovernanceRule` without its two timestamps. */
  datatype Rule = Rule(id: string, name: string, description: string, severity: string, enabled: bool)

  /** The rule store: rules in insertion order. */
  datatype Manager = Manager(rules: seq<Rule>)

  const DataEmpty: string := "Data cannot be empty"

  predicate HasId(rules: seq<Rule>, id: string) {
    exists i :: 0 <= i < |rules| && rules[i].id == id
  }

  /** A dict has one entry per key. */
  predicate DistinctIds(rules: seq<Rule>) {
    forall i, j :: 0 <= i < j < |rules| ==> rules[i].id != rules[j].id
  }

  predicate Valid(m: Manager) {
    DistinctIds(m.rules)
  }

  /** The empty store of `GovernanceManager()`. */
  function NewManager(): (m: Manager)
    ensures Valid(m) && m.rules == []
  {
    Manager([])
  }

  /** `get_rule`: the rule stored under `id`, if any. */
  function GetRule(rules: seq<Rule>, id: string): (r: Option<Rule>)
    ensures r.Some? ==> r.value in rules && r.value.id == id
    ensures r.None? <==> !HasId(rules, id)
    decreases |rules|
  {
    if |rules| == 0 then None
    else if rules[0].id == id then Some(rules[0])
    else
      var r := GetRule(rules[1..], id);
      assert HasId(rules, id) ==> HasId(rules[1..], id) by {
        if HasId(rules, id) {
          var i :| 0 <= i < |rules| && rules[i].id == id;
          assert rules[1..][i - 1].id == id;
        }
      }
      assert HasId(rules[1..], id) ==> HasId(rules, id) by {
        if HasId(rules[1..], id) {
          var i :| 0 <= i < |rules[1..]| && rules[1..][i].id == id;
          assert rules[i + 1].id == id;
        }
      }
      r
  }

  /** The store without the rule keyed `id`, order otherwise kept. */
  function Without(rules: seq<Rule>, id: string): (r: seq<Rule>)
    ensures forall x :: x in r <==> x in rules && x.id != id
    ensures |r| <= |rules|
    decreases |rules|
  {
    if |rules| == 0 then []
    else if rules[0].id == id then Without(rules[1..], id)
    else [rules[0]] + Without(rules[1..], id)
  }

  /** Removal keeps the order of the rules that remain: it distributes
      over concatenation, so `Without` is the in-order filter of the
      store by id. */
  lemma {:induction false} WithoutAppend(a: seq<Rule>, b: seq<Rule>, id: string)
    ensures Without(a + b, id) == Without(a, id) + Without(b, id)
    decreases |a|
  {
    if |a| > 0 {
      assert (a + b)[0] == a[0];
      assert (a + b)[1..] == a[1..] + b;
      WithoutAppend(a[1..], b, id);
    } else {
      assert a + b == b;
    }
  }

  /** `add_rule`: refused, with the store unchanged, when the id is
      taken; otherwise the rule is appended. */
  function AddRule(m: Manager, rule: Rule): (r: (Manager, bool))
    ensures r.1 <==> !HasId(m.rules, rule.id)
    ensures !r.1 ==> r.0 == m
    ensures r.1 ==> r.0.rules == m.rules + [rule]
    ensures Valid(m) ==> Valid(r.0)
  {
    if GetRule(m.rules, rule.id).Some? then (m, false)
    else
      assert forall i :: 0 <= i < |m.rules| ==> m.rules[i].id != rule.id;
      (Manager(m.rules + [rule]), true)
  }

  /** `remove_rule`: reports whether the id was present and drops it. */
  function RemoveRule(m: Manager, id: string): (r: (Manager, bool))
    ensures r.1 <==> HasId(m.rules, id)
    ensures !r.1 ==> r.0 == m
    ensures forall x :: x in r.0.rules <==> x in m.rules && x.id != id
  {
    if GetRule(m.rules, id).None? then (m, false)
    else (Manager(Without(m.rules, id)), true)
  }

  /** Dropping rules keeps ids distinct. */
  lemma {:induction false} WithoutKeepsDistinct(rules: seq<Rule>, id: string)
    requires DistinctIds(rules)
    ensures DistinctIds(Without(rules, id))
    decreases |rules|
  {
    if |rules| > 0 {
      assert DistinctIds(rules[1..]) by {
        forall i, j | 0 <= i < j < |rules[1..]| ensures rules[1..][i].id != rules[1..][j].id {
          assert rules[1..][i] == rules[i + 1] && rules[1..][j] == rules[j + 1];
        }
      }
      WithoutKeepsDistinct(rules[1..], id);
      var rest := Without(rules[1..], id);
      if rules[0].id != id {
        forall x | x in rest ensures x.id != rules[0].id {
          var k :| 0 <= k < |rules[1..]| && rules[1..][k] == x;
          assert rules[k + 1] == x;
        }
        var r := [rules[0]] + rest;
        forall i, j | 0 <= i < j < |r| ensures r[i].id != r[j].id {
          if i == 0 {
            assert r[j] == rest[j - 1] && rest[j - 1] in rest;
          } else {
            assert r[i] == rest[i - 1] && r[j] == rest[j - 1];
          }
        }
      }
    }
  }

  lemma RemoveRulePreservesValid(m: Manager, id: string)
    requires Valid(m)
    ensures Valid(RemoveRule(m, id).0)
  {
    WithoutKeepsDistinct(m.rules, id);
  }

  /** In a store with distinct ids, a rule present is the one `get_rule`
      returns for its id. */
  lemma {:induction false} GetRuleFindsMember(rules: seq<Rule>, x: Rule)
    requires DistinctIds(rules)
    requires x in rules
    ensures GetRule(rules, x.id) == Some(x)
    decreases |rules|
  {
    if rules[0] != x {
      assert x in rules[1..];
      assert rules[0].id != x.id by {
        var k :| 0 <= k < |rules| && rules[k] == x;
        assert k != 0;
      }
      assert DistinctIds(rules[1..]) by {
        forall i, j | 0 <= i < j < |rules[1..]| ensures rules[1..][i].id != rules[1..][j].id {
          assert rules[1..][i] == rules[i + 1] && rules[1..][j] == rules[j + 1];
        }
      }
      GetRuleFindsMember(rules[1..], x);
    }
  }

  /** After a successful add, the new id finds the new rule and every
      other id finds what it found before. */
  lemma {:induction false} GetRuleAfterAppend(rules: seq<Rule>, rule: Rule, id: string)
    requires !HasId(rules, rule.id)
    ensures GetRule(rules + [rule], id) == (if id == rule.id then Some(rule) else GetRule(rules, id))
    decreases |rules|
  {
    if |rules| > 0 {
      assert (rules + [rule])[0] == rules[0];
      assert (rules + [rule])[1..] == rules[1..] + [rule];
      GetRuleAfterAppend(rules[1..], rule, id);
    } else {
      assert rules + [rule] == [rule];
    }
  }

  /** After a successful remove, the id finds nothing and every other id
      finds what it found before. */
  lemma {:induction false} GetRuleAfterWithout(rules: seq<Rule>, id: string, other: string)
    ensures GetRule(Without(rules, id), other) == (if other == id then None else GetRule(rules, other))
    decreases |rules|
  {
    if |rules| > 0 {
      GetRuleAfterWithout(rules[1..], id, other);
      if rules[0].id != id {
        var rest := Without(rules[1..], id);
        assert ([rules[0]] + rest)[0] == rules[0];
        assert ([rules[0]] + rest)[1..] == rest;
      }
    } else {
      assert Without(rules, id) == [];
    }
  }

  /** The add and remove contracts in terms of `get_rule`. */
  lemma AddThenGet(m: Manager, rule: Rule, id: string)
    requires !HasId(m.rules, rule.id)
    ensures AddRule(m, rule).1
    ensures GetRule(AddRule(m, rule).0.rules, id) == (if id == rule.id then Some(rule) else GetRule(m.rules, id))
  {
    GetRuleAfterAppend(m.rules, rule, id);
  }

  lemma RemoveThenGet(m: Manager, id: string, other: string)
    requires HasId(m.rules, id)
    ensures RemoveRule(m, id).1
    ensures GetRule(RemoveRule(m, id).0.rules, other) == (if other == id then None else GetRule(m.rules, other))
  {
    GetRuleAfterWithout(m.rules, id, other);
  }

  /** The enabled rules, in store order. */
  function EnabledRules(rules: seq<Rule>): (r: seq<Rule>)
    ensures forall x :: x in r <==> x in rules && x.enabled
    ensures |r| <= |rules|
    decreases |rules|
  {
    if |rules| == 0 then []
    else if rules[0].enabled then [rules[0]] + EnabledRules(rules[1..])
    else EnabledRules(rules[1..])
  }

  /** `list_rules(enabled_only)`. */
  function ListRules(m: Manager, enabledOnly: bool): (r: seq<Rule>)
    ensures !enabledOnly ==> r == m.rules
    ensures enabledOnly ==> forall x :: x in r <==> x in m.rules && x.enabled
  {
    if enabledOnly then EnabledRules(m.rules) else m.rules
  }

  /** Listing keeps the store's order: the enabled listing of a
      concatenation is the concatenation of the enabled listings. */
  lemma {:induction false} EnabledRulesAppend(a: seq<Rule>, b: seq<Rule>)
    ensures EnabledRules(a + b) == EnabledRules(a) + EnabledRules(b)
    decreases |a|
  {
    if |a| > 0 {
      assert (a + b)[0] == a[0];
      assert (a + b)[1..] == a[1..] + b;
      EnabledRulesAppend(a[1..], b);
    } else {
      assert a + b == b;
    }
  }

  /** One entry of the report's `violations` list. */
  datatype RuleViolation = RuleViolation(ruleId: string, ruleName: string, severity: string, message: string)

  /** The dict `validate` returns. */
  datatype Report = Report(valid: bool, violations: seq<RuleViolation>, timestamp: string)

  /** `_check_rule`: data that is empty or otherwise falsy breaks every rule. */
  function CheckRule(rule: Rule, data: Json): (r: Option<string>)
    ensures r.Some? <==> !Truthy(data)
  {
    if !Truthy(data) then Some(DataEmpty) else None
  }

  function ViolationOf(rule: Rule, message: string): RuleViolation {
    RuleViolation(rule.id, rule.name, rule.severity, message)
  }

  /** `validate`: each enabled rule is checked in store order, and the
      report is valid until a rule reports a violation. */
  method Validate(m: Manager, data: Json, timestamp: string) returns (report: Report)
    ensures report.valid <==> report.violations == []
    ensures report.timestamp == timestamp
    ensures Truthy(data) ==> report.violations == []
    ensures !Truthy(data) ==>
      var enabled := EnabledRules(m.rules);
      && |report.violations| == |enabled|
      && forall i :: 0 <= i < |enabled| ==> report.violations[i] == ViolationOf(enabled[i], DataEmpty)
    ensures forall v :: v in report.violations ==>
      exists x :: x in m.rules && x.enabled && x.id == v.ruleId
  {
    var enabled := ListRules(m, true);
    var valid := true;
    var violations: seq<RuleViolation> := [];
    var n := 0;
    while n < |enabled|
      invariant 0 <= n <= |enabled|
      invariant valid <==> violations == []
      invariant Truthy(data) ==> violations == []
      invariant !Truthy(data) ==> |violations| == n
      invariant !Truthy(data) ==> forall i :: 0 <= i < n ==> violations[i] == ViolationOf(enabled[i], DataEmpty)
    {
      var rule := enabled[n];
      var violation := CheckRule(rule, data);
      if violation.Some? {
        valid := false;
        violations := violations + [ViolationOf(rule, violation.value)];
      }
      n := n + 1;
    }
    report := Report(valid, violations, timestamp);
    forall v | v in report.violations
      ensures exists x :: x in m.rules && x.enabled && x.id == v.ruleId
    {
      var i :| 0 <= i < |violations| && violations[i] == v;
      assert enabled[i] in enabled && enabled[i].id == v.ruleId;
    }
  }
}

=== FILE: governant_cli.dfy ===
/** `src/governant/cli.py`: locating the command in argv, merging the
    global options given before and after it with environment-variable
    fallbacks, building the registry and mapping outcomes to exit codes.
    Option parsing itself is argparse's: the options each side of the
    command carries arrive here already parsed, as maps from option name
    to value. Reading the input document is a parameter. */
module GovernantCli {
  import opened Wrappers
  import opened Text
  import opened PyJson
  import opened PolicyCore

  const KnownCmds: set<string> := {"allow", "violations", "decision", "evaluate", "version"}

  const NoCommandError: string :=
    "No command found. Expected one of: allow, decision, evaluate, version, violations"
  const NeedArtifactError: string := "When not using --index, you must provide --artifact and --package."
  const NeedPolicyError: string := "When using --index, you must specify --policy <name>."
  const DefaultPolicyName: string := "default"

  /** The environment variable each global option falls back to. */
  const EnvNames: map<string, string> := map[
    "index" := "POLICY_INDEX",
    "artifact" := "POLICY_ARTIFACT",
    "package" := "POLICY_PACKAGE",
    "policy" := "POLICY_NAME",
    "mode" := "POLICY_MODE",
    "input_path" := "POLICY_INPUT"]

  /** The position of the first known command at or after `from`. */
  function FirstCommand(argv: seq<string>, from: nat): (r: Option<nat>)
    requires from <= |argv|
    ensures r.Some? ==> from <= r.value < |argv| && argv[r.value] in KnownCmds
    ensures r.Some? ==> forall j :: from <= j < r.value ==> argv[j] !in KnownCmds
    ensures r.None? ==> forall j :: from <= j < |argv| ==> argv[j] !in KnownCmds
    decreases |argv| - from
  {
    if from == |argv| then None
    else if argv[from] in KnownCmds then Some(from)
    else FirstCommand(argv, from + 1)
  }

  datatype Split = Split(left: seq<string>, cmd: string, right: seq<string>)

  /** `_split_argv`. */
  function SplitArgv(argv: seq<string>): (r: Py<Split>)
    ensures r.Ok? ==> r.value.left + [r.value.cmd] + r.value.right == argv
    ensures r.Ok? ==> r.value.cmd in KnownCmds && forall t :: t in r.value.left ==> t !in KnownCmds
    ensures r.Err? <==> forall t :: t in argv ==> t !in KnownCmds
    ensures r.Err? ==> r.error == PolicyError(NoCommandError)
  {
    match FirstCommand(argv, 0)
    case None => Err(PolicyError(NoCommandError))
    case Some(i) =>
      assert argv[..i] + [argv[i]] + argv[i + 1..] == argv;
      Ok(Split(argv[..i], argv[i], argv[i + 1..]))
  }

  /** The command is at the same place whatever surrounds the split:
      splitting `left + [cmd] + right` for a command-free `left` gives
      back exactly those three parts. */
  lemma SplitArgvRoundTrip(left: seq<string>, cmd: string, right: seq<string>)
    requires cmd in KnownCmds
    requires forall t :: t in left ==> t !in KnownCmds
    ensures SplitArgv(left + [cmd] + right) == Ok(Split(left, cmd, right))
  {
    var argv := left + [cmd] + right;
    var r := SplitArgv(argv);
    var i := FirstCommand(argv, 0).value;
    assert argv[|left|] == cmd;
    if i > |left| {
      assert false;
    }
    assert argv[..i] == left;
    assert argv[i + 1..] == right;
  }

  /** `pick(name)`: after the command, else before it, else the
      environment. */
  function Pick(right: map<string, string>, left: map<string, string>, env: map<string, string>,
                name: string): (r: Option<string>)
    ensures name in right ==> r == Some(right[name])
    ensures name !in right && name in left ==> r == Some(left[name])
    ensures name !in right && name !in left ==>
      r == (if name in EnvNames && EnvNames[name] in env then Some(env[EnvNames[name]]) else None)
  {
    if name in right then Some(right[name])
    else if name in left then Some(left[name])
    else if name in EnvNames && EnvNames[name] in env then Some(env[EnvNames[name]])
    else None
  }

  /** An option's truthiness: given and non-empty. */
  predicate Given(v: Option<string>) {
    v.Some? && |v.value| > 0
  }

  /** The merged namespace of `_parse_globals_anywhere`. */
  datatype Globals = Globals(
    index: Option<string>,
    artifact: Option<string>,
    package: Option<string>,
    policy: Option<string>,
    mode: string,
    inputPath: Option<string>)

  function ParseGlobals(left: map<string, string>, right: map<string, string>,
                        env: map<string, string>): (g: Globals)
    ensures g.index == Pick(right, left, env, "index")
    ensures g.artifact == Pick(right, left, env, "artifact")
    ensures g.package == Pick(right, left, env, "package")
    ensures g.policy == Pick(right, left, env, "policy")
    ensures g.inputPath == Pick(right, left, env, "input_path")
    ensures !Given(Pick(right, left, env, "mode")) ==> g.mode == DefaultMode
    ensures Given(Pick(right, left, env, "mode")) ==> g.mode == Pick(right, left, env, "mode").value
  {
    var mode := Pick(right, left, env, "mode");
    Globals(
      Pick(right, left, env, "index"),
      Pick(right, left, env, "artifact"),
      Pick(right, left, env, "package"),
      Pick(right, left, env, "policy"),
      if Given(mode) then mode.value else DefaultMode,
      Pick(right, left, env, "input_path"))
  }

  /** `_build_registry`. */
  function BuildRegistry(cmd: string, g: Globals, host: Host): (r: Py<Registry>)
    ensures cmd == "version" ==> r == Ok(map[])
    ensures cmd != "version" && !Given(g.index) && !(Given(g.artifact) && Given(g.package)) ==>
      r == Err(PolicyError(NeedArtifactError))
    ensures r.Ok? && cmd != "version" && !Given(g.index) ==>
      r.value.Keys == {if Given(g.policy) then g.policy.value else DefaultPolicyName}
  {
    if cmd == "version" then Ok(map[])
    else if Given(g.index) then
      var (reg, raised) := LoadFromIndex(map[], g.index.value, host);
      if raised.Some? then Err(raised.value) else Ok(reg)
    else if !(Given(g.artifact) && Given(g.package)) then Err(PolicyError(NeedArtifactError))
    else
      var name := if Given(g.policy) then g.policy.value else DefaultPolicyName;
      Register(map[], name, g.artifact.value, g.package.value, JStr(g.mode), host)
  }

  /** What a command prints, as a JSON value; `version` prints the
      package version, which is outside the model. */
  datatype Printed = VersionText | Value(v: Json)

  /** The `try` block of `main` once the command is known. */
  function RunCommand(cmd: string, g: Globals, entrypoint: string, host: Host,
                      loadInput: Option<string> -> Py<Json>): (r: Py<Printed>)
    ensures cmd == "version" ==> r == Ok(VersionText)
    ensures (cmd != "version" && BuildRegistry(cmd, g, host).Ok? && loadInput(g.inputPath).Ok?
             && Given(g.index) && !Given(g.policy)) ==> r == Err(PolicyError(NeedPolicyError))
  {
    if cmd == "version" then Ok(VersionText)
    else
      var reg :- BuildRegistry(cmd, g, host);
      var input :- loadInput(g.inputPath);
      if Given(g.index) && !Given(g.policy) then Err(PolicyError(NeedPolicyError))
      else
        var name := if Given(g.policy) then g.policy.value else DefaultPolicyName;
        if cmd == "allow" then
          var engine :- GetEngine(reg, name);
          var allow :- Allow(engine, input, host);
          Ok(Value(JBool(allow)))
        else if cmd == "violations" then
          var engine :- GetEngine(reg, name);
          var violations :- Violations(engine, input, host);
          Ok(Value(JList(violations)))
        else if cmd == "decision" then
          var engine :- GetEngine(reg, name);
          var d :- DecisionOf(engine, input, host);
          Ok(Value(JObj(map["allow" := JBool(d.allow), "violations" := JList(d.violations)])))
        else if cmd == "evaluate" then
          var engine :- GetEngine(reg, name);
          var v :- BackendEvaluate(engine.backend, entrypoint, input, host);
          Ok(Value(v))
        else Err(PolicyError("Unknown command: " + cmd))
  }

  /** The exit code for an exception `main` catches. */
  function ExitFor(e: Exc): (code: int)
    ensures code == 2 <==> e.PolicyError?
    ensures code == 3 <==> !e.PolicyError?
  {
    if e.PolicyError? then 2 else 3
  }

  /** `main`: the exit status for an argv whose two sides parse to
      `leftOpts` and `rightOpts`. */
  function MainExit(argv: seq<string>, leftOpts: map<string, string>, rightOpts: map<string, string>,
                    env: map<string, string>, entrypoint: string, host: Host,
                    loadInput: Option<string> -> Py<Json>): (code: int)
    ensures code in {0, 2, 3}
    ensures SplitArgv(argv).Err? && (|argv| == 0 || "-h" in argv || "--help" in argv) ==> code == 0
    ensures SplitArgv(argv).Err? && !(|argv| == 0 || "-h" in argv || "--help" in argv) ==> code == 2
    ensures SplitArgv(argv).Ok? ==>
      var run := RunCommand(SplitArgv(argv).value.cmd, ParseGlobals(leftOpts, rightOpts, env), entrypoint, host, loadInput);
      && (code == 0 <==> run.Ok?)
      && (run.Err? ==> code == ExitFor(run.error))
  {
    match SplitArgv(argv)
    case Err(_) => if |argv| == 0 || "-h" in argv || "--help" in argv then 0 else 2
    case Ok(split) =>
      match RunCommand(split.cmd, ParseGlobals(leftOpts, rightOpts, env), entrypoint, host, loadInput)
      case Ok(_) => 0
      case Err(e) => ExitFor(e)
  }

  /** `version` succeeds wherever it stands and whatever the options say. */
  lemma VersionAlwaysSucceeds(left: seq<string>, right: seq<string>, leftOpts: map<string, string>,
                              rightOpts: map<string, string>, env: map<string, string>,
                              entrypoint: string, host: Host, loadInput: Option<string> -> Py<Json>)
    requires forall t :: t in left ==> t !in KnownCmds
    ensures MainExit(left + ["version"] + right, leftOpts, rightOpts, env, entrypoint, host, loadInput) == 0
  {
    SplitArgvRoundTrip(left, "version", right);
  }
}

=== FILE: governant_core.dfy ===
/** `src/governant/core.py`: the policy engine over two backends (the
    opa-wasm runtime and the `opa eval` command line), the unwrapping of
    `opa eval` JSON output, and the registry of named engines. What the
    backends need from the machine (whether files exist, whether the
    runtime imports, what `opa eval` prints, what an index file holds) is
    a `Host` parameter. */
module PolicyCore {
  import opened Wrappers
  import opened Text
  import opened PyJson

  const DataPrefix: string := "data."
  const WasmSuffix: string := ".wasm"
  const DefaultMode: string := "auto"

  const ModeError: string := "mode must be one of: auto|wasm|cli"
  const EntrypointError: string := "Entrypoint must start with 'data.'"
  const WasmArtifactError: string := "WASM backend requires a .wasm artifact"
  const OpaMissingError: string := "OPA CLI not found in PATH. Install OPA or add it to PATH."
  const WasmImportError: string :=
    "opa-wasm is not installed or failed to import. Install with `pip install opa-wasm` or use CLI backend."
  const IndexNotListError: string := "Index JSON must be a list of objects"

  /** `result[0]["expressions"][0]["value"]` when each step has the
      expected shape, otherwise None. */
  function FirstExpressionValue(result: Json): Json {
    if result.JList? && |result.items| > 0 && result.items[0].JObj? then
      var exprs := Field(result.items[0].fields, "expressions", JNull);
      if exprs.JList? && |exprs.items| > 0 && exprs.items[0].JObj? then
        Field(exprs.items[0].fields, "value", JNull)
      else JNull
    else JNull
  }

  /** `_extract_opa_json_value`: the value inside the `opa eval --format
      json` envelope, a bare non-list `result`, or the input itself. */
  function ExtractOpaJsonValue(parsed: Json): (r: Json)
    ensures !parsed.JObj? ==> r == parsed
    ensures parsed.JObj? && "result" in parsed.fields && !parsed.fields["result"].JList? ==>
      r == parsed.fields["result"]
    ensures parsed.JObj? && ("result" !in parsed.fields || parsed.fields["result"] == EmptyList) ==>
      r == parsed
    ensures r == parsed || (parsed.JObj? && "result" in parsed.fields)
  {
    if !parsed.JObj? then parsed
    else
      var v := FirstExpressionValue(Field(parsed.fields, "result", JNull));
      if v != JNull then v
      else if "result" in parsed.fields && !parsed.fields["result"].JList? then parsed.fields["result"]
      else parsed
  }

  /** The envelope `{"result":[{"expressions":[{"value":V},...]},...]}`
      yields V whenever V is not null, whatever else the objects hold. */
  lemma ExtractEnvelope(fields: map<string, Json>, first: map<string, Json>, rest: seq<Json>,
                        expr: map<string, Json>, more: seq<Json>, v: Json)
    requires v != JNull
    requires "value" in expr && expr["value"] == v
    requires "expressions" in first && first["expressions"] == JList([JObj(expr)] + more)
    requires "result" in fields && fields["result"] == JList([JObj(first)] + rest)
    ensures ExtractOpaJsonValue(JObj(fields)) == v
  {
  }

  /** A result list whose first entry is not an envelope, or whose value
      is null, leaves the whole document as the answer. */
  lemma ExtractFallsBack(fields: map<string, Json>)
    requires "result" in fields && fields["result"].JList?
    requires FirstExpressionValue(fields["result"]) == JNull
    ensures ExtractOpaJsonValue(JObj(fields)) == JObj(fields)
  {
  }

  /** The two backends, each bound to its artifact path. */
  datatype Backend = WasmBackend(artifact: string) | CliBackend(artifact: string)

  /** How one `opa eval` run ended: its exit status and its standard
      output and error, already stripped. */
  datatype OpaRun = OpaRun(returnCode: int, out: string, err: string)

  /** What the backends take from the machine. `wasmLoad` reads the file
      and builds the runtime; `opaRun` bundles the artifact, writes the
      input and runs `opa eval` (an exception when the bundle or the temp
      file cannot be made); `parseJson` is `json.loads`, `render` is
      `str()` and `readJson` reads and parses a file. */
  datatype Host = Host(
    wasmImportable: bool,
    pathExists: string -> bool,
    wasmLoad: string -> Option<Exc>,
    opaOnPath: bool,
    wasmEvaluate: (string, string, Json) -> Py<Json>,
    opaRun: (string, string, Json) -> Py<OpaRun>,
    parseJson: string -> Py<Json>,
    render: Json -> string,
    readJson: string -> Py<Json>)

  /** `_WasmBackend(artifact)`. */
  function WasmCtor(artifact: string, host: Host): (r: Py<Backend>)
    ensures r.Ok? ==> r == Ok(WasmBackend(artifact)) && EndsWith(artifact, WasmSuffix)
    ensures !EndsWith(artifact, WasmSuffix) ==> r.Err? && r.error.PolicyError?
  {
    if !host.wasmImportable then Err(PolicyError(WasmImportError))
    else if !host.pathExists(artifact) then Err(PolicyError("Artifact not found: " + artifact))
    else if !EndsWith(artifact, WasmSuffix) then Err(PolicyError(WasmArtifactError))
    else match host.wasmLoad(artifact)
      case Some(e) => Err(e)
      case None => Ok(WasmBackend(artifact))
  }

  /** `_CliBackend(artifact)`. */
  function CliCtor(artifact: string, host: Host): (r: Py<Backend>)
    ensures r.Ok? <==> host.pathExists(artifact) && host.opaOnPath
    ensures r.Ok? ==> r.value == CliBackend(artifact)
    ensures r.Err? ==> r.error.PolicyError?
  {
    if !host.pathExists(artifact) then Err(PolicyError("Artifact not found: " + artifact))
    else if !host.opaOnPath then Err(PolicyError(OpaMissingError))
    else Ok(CliBackend(artifact))
  }

  /** `_select_backend`: the mode is compared case-insensitively; `auto`
      tries WASM only for a `.wasm` artifact and falls back to the CLI
      when that raises `PolicyError`. */
  function SelectBackend(artifact: string, mode: Json, host: Host): (r: Py<Backend>)
    ensures !mode.JStr? ==> r == Err(AttributeError)
    ensures mode.JStr? && Lower(mode.s) !in ["auto", "wasm", "cli"] ==> r == Err(PolicyError(ModeError))
    ensures mode.JStr? && Lower(mode.s) == "auto" && !EndsWith(artifact, WasmSuffix) ==> r == CliCtor(artifact, host)
    ensures (mode.JStr? && Lower(mode.s) == "auto" && WasmCtor(artifact, host).Err?
             && WasmCtor(artifact, host).error.PolicyError?) ==> r == CliCtor(artifact, host)
    ensures r.Ok? ==> r.value.artifact == artifact
    ensures r.Ok? && r.value.WasmBackend? ==> EndsWith(artifact, WasmSuffix)
  {
    if !mode.JStr? then Err(AttributeError)
    else
      var m := Lower(mode.s);
      if m !in ["auto", "wasm", "cli"] then Err(PolicyError(ModeError))
      else if m == "wasm" then WasmCtor(artifact, host)
      else if m == "cli" then CliCtor(artifact, host)
      else if EndsWith(artifact, WasmSuffix) then
        match WasmCtor(artifact, host)
        case Ok(b) => Ok(b)
        case Err(PolicyError(_)) => CliCtor(artifact, host)
        case Err(e) => Err(e)
      else CliCtor(artifact, host)
  }

  /** A `PolicyEngine`: artifact, default package and chosen backend. */
  datatype Engine = Engine(artifact: string, package: string, backend: Backend)

  function NewEngine(artifact: string, package: string, mode: Json, host: Host): (r: Py<Engine>)
    ensures r.Ok? ==> r.value.artifact == artifact && r.value.package == package
    ensures r.Ok? <==> SelectBackend(artifact, mode, host).Ok?
  {
    var backend :- SelectBackend(artifact, mode, host);
    Ok(Engine(artifact, package, backend))
  }

  /** `_ep(rule)`. */
  function Ep(package: string, rule: string): (r: string)
    ensures StartsWith(r, DataPrefix)
    ensures |r| == |DataPrefix| + |package| + 1 + |rule|
  {
    DataPrefix + package + "." + rule
  }

  /** The decimal text of an exit status, as an f-string renders it. */
  function Decimal(n: int): (r: string)
    ensures |r| > 0
    decreases if n < 0 then 1 - n else n
  {
    if n < 0 then "-" + Decimal(-n)
    else if n < 10 then ["0123456789"[n]]
    else Decimal(n / 10) + ["0123456789"[n % 10]]
  }

  /** `err or out or f"opa exited with code {code}"`. */
  function FallbackMessage(run: OpaRun): (r: string)
    ensures |r| > 0
    ensures |run.err| > 0 ==> r == run.err
    ensures |run.err| == 0 && |run.out| > 0 ==> r == run.out
  {
    if |run.err| > 0 then run.err
    else if |run.out| > 0 then run.out
    else "opa exited with code " + Decimal(run.returnCode)
  }

  /** `", ".join(e.get("message", str(e)) for e in errors)`, or None
      when Python would raise on the way (an entry without `get`, a
      message that is not a string, an `errors` that is not iterable). */
  function ReportedErrors(errors: seq<Json>, host: Host): (r: Option<string>)
    ensures r.Some? <==> forall i :: 0 <= i < |errors| ==>
      errors[i].JObj? && Field(errors[i].fields, "message", JStr(host.render(errors[i]))).JStr?
    decreases |errors|
  {
    if |errors| == 0 then Some("")
    else if !errors[0].JObj? then None
    else
      var m := Field(errors[0].fields, "message", JStr(host.render(errors[0])));
      if !m.JStr? then None
      else match ReportedErrors(errors[1..], host)
        case None => None
        case Some(rest) => Some(if |errors| == 1 then m.s else m.s + ", " + rest)
  }

  /** The `opa eval` error report hidden in standard output: a JSON
      object with an `errors` list whose messages can all be joined. */
  function ErrorReport(run: OpaRun, host: Host): Option<string> {
    if |run.out| == 0 then None
    else match host.parseJson(run.out)
      case Ok(JObj(j)) =>
        if "errors" !in j then None
        else
          var errors := j["errors"];
          if errors.JList? then ReportedErrors(errors.items, host)
          else if errors == EmptyObj || errors == JStr("") then Some("")
          else None
      case _ => None
  }

  /** The exception a failed `opa eval` raises, as the code is written:
      the report `PolicyError("opa eval error: ...")` is raised inside the
      `try` whose `except Exception: pass` was meant for bad JSON, so it
      is swallowed and the message is always the fallback text. */
  function CliFailureAsWritten(run: OpaRun, host: Host): (r: Exc)
    ensures r.PolicyError? && |r.message| > 0
    ensures |run.err| > 0 ==> r.message == run.err
  {
    var _ := ErrorReport(run, host);
    PolicyError(FallbackMessage(run))
  }

  /** The exception a failed `opa eval` is meant to raise: the joined
      error messages when standard output carries an error report, the
      fallback text otherwise. */
  function CliFailure(run: OpaRun, host: Host): (r: Exc)
    ensures r.PolicyError?
    ensures ErrorReport(run, host).Some? ==> r.message == "opa eval error: " + ErrorReport(run, host).value
    ensures ErrorReport(run, host).None? ==> r.message == FallbackMessage(run)
  {
    match ErrorReport(run, host)
    case Some(msgs) => PolicyError("opa eval error: " + msgs)
    case None => PolicyError(FallbackMessage(run))
  }

  /** The two differ exactly when an error report is present and standard
      error is not already that report's text: an `opa eval` that exits 1
      with `{"errors":[{"message":"x"}]}` and an empty standard error
      raises the raw JSON text instead of `opa eval error: x`. */
  lemma ReportSwallowed(run: OpaRun, host: Host)
    requires run.returnCode == 1 && run.err == ""
    requires run.out == "{\"errors\":[{\"message\":\"x\"}]}"
    requires host.parseJson(run.out) == Ok(JObj(map["errors" := JList([JObj(map["message" := JStr("x")])])]))
    ensures CliFailureAsWritten(run, host) == PolicyError(run.out)
    ensures CliFailure(run, host) == PolicyError("opa eval error: x")
    ensures CliFailureAsWritten(run, host) != CliFailure(run, host)
  {
    var e := JObj(map["message" := JStr("x")]);
    assert ReportedErrors([e], host) == Some("x") by {
      assert Field(e.fields, "message", JStr(host.render(e))) == JStr("x");
      assert ReportedErrors([e][1..], host) == Some("");
    }
    assert ErrorReport(run, host) == Some("x");
    assert run.out[0] != "opa eval error: x"[0];
  }

  /** The correction only rewords a reported failure: both versions
      raise PolicyError, and without a joinable error report on standard
      output they raise the same exception. */
  lemma CorrectionOnlyRewordsReports(run: OpaRun, host: Host)
    ensures CliFailure(run, host).PolicyError? && CliFailureAsWritten(run, host).PolicyError?
    ensures ErrorReport(run, host).None? ==> CliFailure(run, host) == CliFailureAsWritten(run, host)
  {
  }

  /** `_CliBackend.evaluate` once the entrypoint is accepted: a non-zero
      exit raises, an empty output is `{}`, anything else is parsed and
      unwrapped from its envelope. */
  function CliEvaluate(artifact: string, entrypoint: string, input: Json, host: Host): (r: Py<Json>)
    ensures host.opaRun(artifact, entrypoint, input).Ok? && host.opaRun(artifact, entrypoint, input).value.returnCode != 0 ==>
      r == Err(CliFailure(host.opaRun(artifact, entrypoint, input).value, host))
    ensures (host.opaRun(artifact, entrypoint, input).Ok? && host.opaRun(artifact, entrypoint, input).value.returnCode == 0
             && host.opaRun(artifact, entrypoint, input).value.out == "") ==> r == Ok(EmptyObj)
    ensures host.opaRun(artifact, entrypoint, input).Err? ==> r == Err(host.opaRun(artifact, entrypoint, input).error)
    ensures (host.opaRun(artifact, entrypoint, input).Ok? && host.opaRun(artifact, entrypoint, input).value.returnCode == 0
             && host.opaRun(artifact, entrypoint, input).value.out != "") ==>
      var parsed := host.parseJson(host.opaRun(artifact, entrypoint, input).value.out);
      && (parsed.Err? ==> r == Err(parsed.error))
      && (parsed.Ok? ==> r == Ok(ExtractOpaJsonValue(parsed.value)))
  {
    var run :- host.opaRun(artifact, entrypoint, input);
    if run.returnCode != 0 then Err(CliFailure(run, host))
    else
      var parsed :- if |run.out| == 0 then Ok(EmptyObj) else host.parseJson(run.out);
      Ok(ExtractOpaJsonValue(parsed))
  }

  /** `_Backend.evaluate`: both backends refuse an entrypoint outside
      `data.` before doing anything else. */
  function BackendEvaluate(backend: Backend, entrypoint: string, input: Json, host: Host): (r: Py<Json>)
    ensures !StartsWith(entrypoint, DataPrefix) ==> r == Err(PolicyError(EntrypointError))
  {
    if !StartsWith(entrypoint, DataPrefix) then Err(PolicyError(EntrypointError))
    else match backend
      case WasmBackend(artifact) => host.wasmEvaluate(artifact, entrypoint, input)
      case CliBackend(artifact) => CliEvaluate(artifact, entrypoint, input, host)
  }

  /** The engine's own entrypoints are never refused by the prefix
      check: evaluating one is exactly what the backend answers. */
  lemma EngineEntrypointsAccepted(e: Engine, rule: string, input: Json, host: Host)
    ensures var ep := Ep(e.package, rule);
      BackendEvaluate(e.backend, ep, input, host) ==
        (match e.backend
         case WasmBackend(a) => host.wasmEvaluate(a, ep, input)
         case CliBackend(a) => CliEvaluate(a, ep, input, host))
  {
  }

  /** `PolicyEngine.allow`: the truthiness of the `allow` rule. */
  function Allow(e: Engine, input: Json, host: Host): (r: Py<bool>)
    ensures var v := BackendEvaluate(e.backend, Ep(e.package, "allow"), input, host);
      (r.Ok? <==> v.Ok?) && (r.Ok? ==> (r.value <==> Truthy(v.value)))
  {
    var v :- BackendEvaluate(e.backend, Ep(e.package, "allow"), input, host);
    Ok(Truthy(v))
  }

  /** The list normalisation of `PolicyEngine.violations`. */
  function ViolationList(v: Json): (r: seq<Json>)
    ensures v.JList? ==> r == v.items
    ensures v == JNull ==> r == []
    ensures !v.JList? && v != JNull ==> r == [v]
  {
    if v.JList? then v.items else if v == JNull then [] else [v]
  }

  /** Normalising an already normalised answer changes nothing. */
  lemma ViolationListIdempotent(v: Json)
    ensures ViolationList(JList(ViolationList(v))) == ViolationList(v)
  {
  }

  /** `PolicyEngine.violations`. */
  function Violations(e: Engine, input: Json, host: Host): (r: Py<seq<Json>>)
    ensures var v := BackendEvaluate(e.backend, Ep(e.package, "violations"), input, host);
      (r.Ok? <==> v.Ok?) && (r.Ok? ==> r.value == ViolationList(v.value))
  {
    var v :- BackendEvaluate(e.backend, Ep(e.package, "violations"), input, host);
    Ok(ViolationList(v))
  }

  /** `PolicyEngine.decision`: allow is evaluated first. */
  datatype Decision = Decision(allow: bool, violations: seq<Json>)

  function DecisionOf(e: Engine, input: Json, host: Host): (r: Py<Decision>)
    ensures r.Ok? <==> Allow(e, input, host).Ok? && Violations(e, input, host).Ok?
    ensures Allow(e, input, host).Err? ==> r == Err(Allow(e, input, host).error)
    ensures r.Ok? ==> r.value == Decision(Allow(e, input, host).value, Violations(e, input, host).value)
  {
    var allow :- Allow(e, input, host);
    var violations :- Violations(e, input, host);
    Ok(Decision(allow, violations))
  }

  /** `PolicyRegistry`: engines by name. */
  type Registry = map<string, Engine>

  /** `PolicyRegistry.register`: a taken name raises and keeps the
      registered engine; otherwise a new engine is built and added. */
  function Register(reg: Registry, name: string, artifact: string, package: string,
                    mode: Json, host: Host): (r: Py<Registry>)
    ensures name in reg ==> r == Err(PolicyError("Policy already registered: " + name))
    ensures r.Ok? ==> name !in reg && name in r.value && r.value.Keys == reg.Keys + {name}
    ensures r.Ok? ==> r.value[name].artifact == artifact && r.value[name].package == package
    ensures r.Ok? ==> forall k :: k in reg ==> r.value[k] == reg[k]
    ensures name !in reg ==> (r.Ok? <==> SelectBackend(artifact, mode, host).Ok?)
  {
    if name in reg then Err(PolicyError("Policy already registered: " + name))
    else
      var engine :- NewEngine(artifact, package, mode, host);
      Ok(reg[name := engine])
  }

  /** `PolicyRegistry.get`. */
  function GetEngine(reg: Registry, name: string): (r: Py<Engine>)
    ensures r.Ok? <==> name in reg
    ensures r.Ok? ==> r.value == reg[name]
    ensures r.Err? ==> r.error == PolicyError("Policy not found: " + name)
  {
    if name !in reg then Err(PolicyError("Policy not found: " + name)) else Ok(reg[name])
  }

  /** A registered name is found again, with the engine just built. */
  lemma RegisterThenGet(reg: Registry, name: string, artifact: string, package: string,
                        mode: Json, host: Host, other: string)
    requires Register(reg, name, artifact, package, mode, host).Ok?
    ensures var reg' := Register(reg, name, artifact, package, mode, host).value;
      && GetEngine(reg', name).Ok?
      && GetEngine(reg', name).value.package == package
      && (other != name ==> GetEngine(reg', other) == GetEngine(reg, other))
  {
  }

  /** One index entry: `it["name"]`, `it["artifact"]`, `it["package"]`
      and `it.get("mode", "auto")`. */
  function RegisterEntry(reg: Registry, it: Json, host: Host): (r: Py<Registry>)
    ensures r.Ok? ==> (it.JObj? && "name" in it.fields && it.fields["name"].JStr?
      && it.fields["name"].s in r.value && forall k :: k in reg ==> k in r.value && r.value[k] == reg[k])
  {
    var name :- Subscript(it, JStr("name"));
    var artifact :- Subscript(it, JStr("artifact"));
    var package :- Subscript(it, JStr("package"));
    var mode := Field(it.fields, "mode", JStr(DefaultMode));
    if !(name.JStr? && artifact.JStr? && package.JStr?) then Err(TypeError)
    else Register(reg, name.s, artifact.s, package.s, mode, host)
  }

  /** An entry without `mode` is registered as `auto`. */
  lemma EntryModeDefaultsToAuto(reg: Registry, fields: map<string, Json>, name: string,
                                artifact: string, package: string, host: Host)
    requires "mode" !in fields
    requires "name" in fields && fields["name"] == JStr(name)
    requires "artifact" in fields && fields["artifact"] == JStr(artifact)
    requires "package" in fields && fields["package"] == JStr(package)
    ensures RegisterEntry(reg, JObj(fields), host) == Register(reg, name, artifact, package, JStr("auto"), host)
  {
  }

  /** The loop of `load_from_index`: entries are registered in order and
      the first exception stops it, keeping those registered before. */
  function RegisterAll(reg: Registry, items: seq<Json>, host: Host): (Registry, Option<Exc>)
    decreases |items|
  {
    if |items| == 0 then (reg, None)
    else match RegisterEntry(reg, items[0], host)
      case Err(e) => (reg, Some(e))
      case Ok(reg') => RegisterAll(reg', items[1..], host)
  }

  /** `load_from_index`: the registry it leaves and the exception it
      raises, if any. */
  function LoadFromIndex(reg: Registry, indexPath: string, host: Host): (r: (Registry, Option<Exc>))
    ensures !host.pathExists(indexPath) ==> r == (reg, Some(PolicyError("Index not found: " + indexPath)))
    ensures host.pathExists(indexPath) && host.readJson(indexPath).Ok? && !host.readJson(indexPath).value.JList? ==>
      r == (reg, Some(PolicyError(IndexNotListError)))
  {
    if !host.pathExists(indexPath) then (reg, Some(PolicyError("Index not found: " + indexPath)))
    else match host.readJson(indexPath)
      case Err(e) => (reg, Some(e))
      case Ok(items) =>
        if !items.JList? then (reg, Some(PolicyError(IndexNotListError)))
        else RegisterAll(reg, items.items, host)
  }

  /** Loading only adds: every engine registered before is still there
      afterwards, whether or not an entry failed. */
  lemma {:induction false} RegisterAllExtends(reg: Registry, items: seq<Json>, host: Host)
    ensures var out := RegisterAll(reg, items, host).0;
      forall k :: k in reg ==> k in out && out[k] == reg[k]
    decreases |items|
  {
    if |items| > 0 {
      var step := RegisterEntry(reg, items[0], host);
      if step.Ok? {
        RegisterAllExtends(step.value, items[1..], host);
      }
    }
  }

  /** A load that raises nothing has registered every entry's name. */
  lemma {:induction false} RegisterAllRegistersEach(reg: Registry, items: seq<Json>, host: Host)
    requires RegisterAll(reg, items, host).1.None?
    ensures forall i :: 0 <= i < |items| ==>
      items[i].JObj? && "name" in items[i].fields && items[i].fields["name"].JStr?
      && items[i].fields["name"].s in RegisterAll(reg, items, host).0
    decreases |items|
  {
    if |items| > 0 {
      var step := RegisterEntry(reg, items[0], host);
      var out := RegisterAll(reg, items, host).0;
      RegisterAllRegistersEach(step.value, items[1..], host);
      RegisterAllExtends(step.value, items[1..], host);
      forall i | 0 <= i < |items|
        ensures items[i].JObj? && "name" in items[i].fields && items[i].fields["name"].JStr?
          && items[i].fields["name"].s in out
      {
        if i > 0 {
          assert items[i] == items[1..][i - 1];
        }
      }
    }
  }
}

=== FILE: handler.dfy ===
/** `src/ghprotect/handler.py`: normalises a GitHub `pull_request` or
    `push` payload into the policy input document, and combines the
    evaluator's two answers into the final decision. The evaluator is a
    parameter: a function from entrypoint and input document to the value
    it returns or the exception it raises. */
module EventHandler {
  import opened Wrappers
  import opened Text
  import opened PyJson

  const DefaultEnvironments: seq<string> := ["production", "staging", "development"]
  /** The default and fallback ticket pattern. It is compiled without
      `re.MULTILINE`, so `$` matches only at the end of the text or before
      a final newline, and `.` does not cross a newline. */
  const FallbackPattern: string := "^.*$"
  const DefaultAllowEntry: string := "data.github.deploy.allow"
  const DefaultViolationsEntry: string := "data.github.deploy.violations"

  /** The input document `build_policy_input` returns, field by field. */
  datatype PolicyInput = PolicyInput(
    environment: string,
    ref: Json,
    repoPolicy: Json,
    repoEnvironments: seq<string>,
    ticketRefs: seq<string>,
    approvers: seq<Json>,
    tests: bool,
    signedOff: bool,
    deploymentsToday: int)
  {
    /** The document as the dict the source builds. */
    function ToJson(): (j: Json)
      ensures j.JObj? && "repo_policy" in j.fields && "workflow_meta" in j.fields && j.fields["workflow_meta"].JObj?
      ensures j.fields["repo_policy"] == repoPolicy
      ensures var meta := j.fields["workflow_meta"].fields;
        && "checks" in meta && meta["checks"].JObj? && "tests" in meta["checks"].fields
        && meta["checks"].fields["tests"].JBool?
        && "signed_off" in meta && meta["signed_off"].JBool?
    {
      JObj(map[
        "environment" := JStr(environment),
        "ref" := ref,
        "repo_policy" := repoPolicy,
        "repo_environments" := JList(seq(|repoEnvironments|, i requires 0 <= i < |repoEnvironments| => JStr(repoEnvironments[i]))),
        "workflow_meta" := JObj(map[
          "ticket_refs" := JList(seq(|ticketRefs|, i requires 0 <= i < |ticketRefs| => JStr(ticketRefs[i]))),
          "approvers" := JList(approvers),
          "checks" := JObj(map["tests" := JBool(tests)]),
          "signed_off" := JBool(signedOff),
          "deployments_today" := JInt(deploymentsToday)])])
    }
  }

  /** `_extract_ticket_refs`: everything `findall` finds in the title and
      body joined by a newline; a pattern that does not compile is
      replaced by the literal pattern `^.*$`, and a non-string pattern
      raises. */
  function ExtractTicketRefs(title: Json, body: Json, pattern: Json, rt: Runtime): (r: Py<seq<string>>)
    ensures r.Ok? <==> pattern.JStr?
    ensures pattern.JStr? && rt.compiles(pattern.s) ==>
      r == Ok(rt.findAll(pattern.s, Str(title, rt) + "\n" + Str(body, rt)))
    ensures pattern.JStr? && !rt.compiles(pattern.s) ==>
      r == Ok(rt.findAll(FallbackPattern, Str(title, rt) + "\n" + Str(body, rt)))
  {
    var combined := Str(title, rt) + "\n" + Str(body, rt);
    if !pattern.JStr? then Err(TypeError)
    else if rt.compiles(pattern.s) then Ok(rt.findAll(pattern.s, combined))
    else Ok(rt.findAll(FallbackPattern, combined))
  }

  /** One review: its login if it is an approval with a truthy login. */
  function ReviewLogin(review: Json): Py<Option<Json>> {
    var state :- Get(review, "state", JNull);
    if state != JStr("APPROVED") then Ok(None)
    else
      var user :- Get(review, "user", EmptyObj);
      var login :- Get(user, "login", JNull);
      if Truthy(login) then Ok(Some(login)) else Ok(None)
  }

  /** The loop of `_collect_pr_approvers` over a list of reviews. */
  function ApprovedLogins(reviews: seq<Json>): (r: Py<seq<Json>>)
    ensures r.Ok? ==> |r.value| <= |reviews|
    ensures r.Ok? ==> forall i :: 0 <= i < |r.value| ==> Truthy(r.value[i])
    decreases |reviews|
  {
    if |reviews| == 0 then Ok([])
    else
      var first :- ReviewLogin(reviews[0]);
      var rest :- ApprovedLogins(reviews[1..]);
      Ok((if first.Some? then [first.value] else []) + rest)
  }

  /** The login a review contributes, as a list of at most one. */
  function Contributed(login: Option<Json>): seq<Json> {
    if login.Some? then [login.value] else []
  }

  /** One step of the loop: a non-empty review list contributes its first
      review's login ahead of the rest. */
  lemma ApprovedLoginsStep(reviews: seq<Json>)
    requires |reviews| > 0 && ReviewLogin(reviews[0]).Ok? && ApprovedLogins(reviews[1..]).Ok?
    ensures ApprovedLogins(reviews) == Ok(Contributed(ReviewLogin(reviews[0]).value) + ApprovedLogins(reviews[1..]).value)
  {
  }

  /** Collecting approvals distributes over concatenation of review
      lists: the logins come out in review order, and each review
      contributes independently of the others. */
  lemma {:induction false} ApprovedLoginsAppend(a: seq<Json>, b: seq<Json>)
    requires ApprovedLogins(a).Ok? && ApprovedLogins(b).Ok?
    ensures ApprovedLogins(a + b) == Ok(ApprovedLogins(a).value + ApprovedLogins(b).value)
    decreases |a|
  {
    if |a| > 0 {
      var ab := a + b;
      var head := Contributed(ReviewLogin(a[0]).value);
      var tail := ApprovedLogins(a[1..]).value;
      var rest := ApprovedLogins(b).value;
      ApprovedLoginsAppend(a[1..], b);
      assert ab[0] == a[0] && ab[1..] == a[1..] + b;
      ApprovedLoginsStep(a);
      ApprovedLoginsStep(ab);
      assert head + (tail + rest) == (head + tail) + rest;
    } else {
      assert a + b == b;
      assert ApprovedLogins(a) == Ok([]);
      assert [] + ApprovedLogins(b).value == ApprovedLogins(b).value;
    }
  }

  /** A single review contributes its login exactly when it is an
      approval whose user has a truthy login. */
  lemma ApprovedLoginsSingle(review: Json, login: Json)
    requires review.JObj?
    ensures ApprovedLogins([review]) == Ok([login]) <==>
      && Field(review.fields, "state", JNull) == JStr("APPROVED")
      && Field(review.fields, "user", EmptyObj).JObj?
      && Field(Field(review.fields, "user", EmptyObj).fields, "login", JNull) == login
      && Truthy(login)
  {
    assert [review][1..] == [];
    assert ApprovedLogins([review][1..]) == Ok([]);
    var state := Field(review.fields, "state", JNull);
    if state == JStr("APPROVED") && Field(review.fields, "user", EmptyObj).JObj? {
      var found := Field(Field(review.fields, "user", EmptyObj).fields, "login", JNull);
      assert ReviewLogin(review) == Ok(if Truthy(found) then Some(found) else None);
      if Truthy(found) {
        assert ApprovedLogins([review]) == Ok([found] + []);
        assert [found] + [] == [found];
        assert [found] == [login] <==> found == login;
      } else {
        assert ApprovedLogins([review]) == Ok([] + []);
      }
    }
  }

  /** `_collect_pr_approvers`: the reviews list, or nothing when it is
      missing or falsy. */
  function CollectPrApprovers(pr: Json): Py<seq<Json>> {
    var listed :- Get(pr, "reviews", EmptyList);
    var reviews :- IterRecords(if Truthy(listed) then listed else EmptyList);
    ApprovedLogins(reviews)
  }

  /** The environment a pull request targets, from its base branch. */
  function EnvironmentForBase(baseRef: Json): string {
    if baseRef == JStr("main") then "production"
    else if baseRef in [JStr("develop"), JStr("development"), JStr("dev")] then "staging"
    else "development"
  }

  /** The environment a push deploys to, from its full ref. */
  function EnvironmentForPush(ref: Json): string {
    if ref == JStr("refs/heads/main") then "production"
    else if ref in [JStr("refs/heads/develop"), JStr("refs/heads/development"), JStr("refs/heads/dev")] then "staging"
    else "development"
  }

  lemma PrefixCancels(p: string, a: string, b: string)
    ensures p + a == p + b <==> a == b
  {
    if p + a == p + b {
      assert a == (p + a)[|p|..];
    }
  }

  /** The two heuristics agree: pushing to `refs/heads/X` selects the
      environment a pull request into `X` would. */
  lemma PushAgreesWithPullRequest(branch: string)
    ensures EnvironmentForPush(JStr("refs/heads/" + branch)) == EnvironmentForBase(JStr(branch))
  {
    var p := "refs/heads/";
    assert "refs/heads/main" == p + "main";
    assert "refs/heads/develop" == p + "develop";
    assert "refs/heads/development" == p + "development";
    assert "refs/heads/dev" == p + "dev";
    PrefixCancels(p, branch, "main");
    PrefixCancels(p, branch, "develop");
    PrefixCancels(p, branch, "development");
    PrefixCancels(p, branch, "dev");
  }

  /** A pushed ref outside `refs/heads/`, such as a tag, selects development. */
  lemma PushOutsideHeadsIsDevelopment(ref: string)
    requires !StartsWith(ref, "refs/heads/")
    ensures EnvironmentForPush(JStr(ref)) == "development"
  {
    assert StartsWith("refs/heads/main", "refs/heads/");
    assert StartsWith("refs/heads/develop", "refs/heads/");
    assert StartsWith("refs/heads/development", "refs/heads/");
    assert StartsWith("refs/heads/dev", "refs/heads/");
  }

  /** `repo_policy.get("policy", {}).get("environments", {}).get(env, {}).get("rules", {})`. */
  function RulesFor(repoPolicy: Json, environment: string): Py<Json> {
    var policy :- Get(repoPolicy, "policy", EmptyObj);
    var environments :- Get(policy, "environments", EmptyObj);
    var config :- Get(environments, environment, EmptyObj);
    Get(config, "rules", EmptyObj)
  }

  /** `rules.get("ticket_pattern", "^.*$")` for an environment's rules. */
  function PatternFor(repoPolicy: Json, environment: string): Py<Json> {
    var rules :- RulesFor(repoPolicy, environment);
    Get(rules, "ticket_pattern", JStr(FallbackPattern))
  }

  /** `[c.get(key, default) for c in items]`. */
  function GetEach(items: seq<Json>, key: string, default: Json): (r: Py<seq<Json>>)
    ensures r.Ok? <==> forall i :: 0 <= i < |items| ==> items[i].JObj?
    ensures r.Err? ==> r.error == AttributeError
    ensures r.Ok? ==>
      && |r.value| == |items|
      && forall i :: 0 <= i < |items| ==> items[i].JObj? && r.value[i] == Field(items[i].fields, key, default)
    decreases |items|
  {
    if |items| == 0 then Ok([])
    else
      var first :- Get(items[0], key, default);
      var rest :- GetEach(items[1..], key, default);
      assert forall i :: 1 <= i < |items| ==> items[1..][i - 1] == items[i];
      Ok([first] + rest)
  }

  /** `"\n".join(parts)`: every part must be a string. */
  function JoinLines(parts: seq<Json>): Py<string> {
    if forall i :: 0 <= i < |parts| ==> parts[i].JStr? then
      Ok(Join("\n", seq(|parts|, i requires 0 <= i < |parts| => parts[i].s)))
    else Err(TypeError)
  }

  /** `repo_environments or [...]`. */
  function EnvironmentsOrDefault(repoEnvironments: Option<seq<string>>): seq<string> {
    if repoEnvironments.Some? && |repoEnvironments.value| > 0 then repoEnvironments.value else DefaultEnvironments
  }

  /** What `build_policy_input` sets for a `pull_request` event: `ref`
      is the head branch, the environment comes from the base branch,
      tickets are found in the title and body with the environment's
      pattern, approvers are the approving logins, `checks.tests` and
      `signed_off` are truthiness, and `deployments_today` is `int()`. */
  predicate PullRequestDoc(payload: map<string, Json>, repoPolicy: Json, rt: Runtime, doc: PolicyInput) {
    var pr := Field(payload, "pull_request", EmptyObj);
    && pr.JObj? && Field(pr.fields, "head", EmptyObj).JObj? && Field(pr.fields, "base", EmptyObj).JObj?
    && doc.ref == Field(Field(pr.fields, "head", EmptyObj).fields, "ref", JStr(""))
    && doc.environment == EnvironmentForBase(Field(Field(pr.fields, "base", EmptyObj).fields, "ref", JStr("")))
    && PatternFor(repoPolicy, doc.environment).Ok?
    && ExtractTicketRefs(Field(pr.fields, "title", JStr("")), Field(pr.fields, "body", JStr("")),
                         PatternFor(repoPolicy, doc.environment).value, rt) == Ok(doc.ticketRefs)
    && CollectPrApprovers(pr) == Ok(doc.approvers)
    && Field(payload, "checks", EmptyObj).JObj?
    && (doc.tests <==> Truthy(Field(Field(payload, "checks", EmptyObj).fields, "tests", JNull)))
    && (doc.signedOff <==> Truthy(Field(payload, "signed_off", JBool(false))))
    && ToInt(Field(payload, "deployments_today", JInt(0)), rt) == Ok(doc.deploymentsToday)
  }

  /** The `pull_request` branch of `build_policy_input`. */
  function PullRequestInput(payload: map<string, Json>, repoPolicy: Json, environments: seq<string>,
                            rt: Runtime): (r: Py<PolicyInput>)
    ensures r.Ok? ==>
      && PullRequestDoc(payload, repoPolicy, rt, r.value)
      && r.value.repoPolicy == repoPolicy && r.value.repoEnvironments == environments
  {
    var pr := Field(payload, "pull_request", EmptyObj);
    var head :- Get(pr, "head", EmptyObj);
    var ref :- Get(head, "ref", JStr(""));
    var base := Field(pr.fields, "base", EmptyObj);
    var baseRef :- Get(base, "ref", JStr(""));
    var environment := EnvironmentForBase(baseRef);
    var title := Field(pr.fields, "title", JStr(""));
    var body := Field(pr.fields, "body", JStr(""));
    var pattern :- PatternFor(repoPolicy, environment);
    var ticketRefs :- ExtractTicketRefs(title, body, pattern, rt);
    var approvers :- CollectPrApprovers(pr);
    var tests :- Get(Field(payload, "checks", EmptyObj), "tests", JNull);
    var signedOff := Field(payload, "signed_off", JBool(false));
    var deployments :- ToInt(Field(payload, "deployments_today", JInt(0)), rt);
    Ok(PolicyInput(environment, ref, repoPolicy, environments, ticketRefs, approvers,
                   Truthy(if tests == JNull then JBool(false) else tests), Truthy(signedOff), deployments))
  }

  /** The description determines the document: a pull request yields
      exactly the one document `PullRequestDoc` describes, and fails
      when none fits. */
  lemma PullRequestInputIff(payload: map<string, Json>, repoPolicy: Json, environments: seq<string>,
                            rt: Runtime, doc: PolicyInput)
    ensures PullRequestInput(payload, repoPolicy, environments, rt) == Ok(doc) <==>
      PullRequestDoc(payload, repoPolicy, rt, doc) && doc.repoPolicy == repoPolicy && doc.repoEnvironments == environments
  {
  }

  /** `c.get("message", "")` of a commit, when it is a dict holding a
      string message. */
  function MessageOf(commit: Json): string {
    if commit.JObj? && Field(commit.fields, "message", JStr("")).JStr? then Field(commit.fields, "message", JStr("")).s
    else ""
  }

  /** The commit list of a push: `payload.get("commits", []) or []`. */
  function CommitsOf(payload: map<string, Json>): Json {
    var listed := Field(payload, "commits", EmptyList);
    if Truthy(listed) then listed else EmptyList
  }

  /** What `build_policy_input` sets for a `push` event: `ref` is the
      pushed ref and picks the environment; tickets are found in the
      first commit's message and all messages joined by newlines; the
      review, test, sign-off and deployment fields take fixed values. */
  predicate PushDoc(payload: map<string, Json>, repoPolicy: Json, rt: Runtime, doc: PolicyInput) {
    var commits := CommitsOf(payload);
    && commits.JList?
    && (forall i :: 0 <= i < |commits.items| ==>
          commits.items[i].JObj? && Field(commits.items[i].fields, "message", JStr("")).JStr?)
    && doc.ref == Field(payload, "ref", JStr(""))
    && doc.environment == EnvironmentForPush(doc.ref)
    && PatternFor(repoPolicy, doc.environment).Ok?
    && ExtractTicketRefs(
         JStr(if |commits.items| > 0 then MessageOf(commits.items[0]) else ""),
         JStr(Join("\n", seq(|commits.items|, i requires 0 <= i < |commits.items| => MessageOf(commits.items[i])))),
         PatternFor(repoPolicy, doc.environment).value, rt) == Ok(doc.ticketRefs)
    && doc.approvers == [] && !doc.tests && !doc.signedOff && doc.deploymentsToday == 0
  }

  /** The `push` branch of `build_policy_input`. */
  function PushInput(payload: map<string, Json>, repoPolicy: Json, environments: seq<string>,
                     rt: Runtime): (r: Py<PolicyInput>)
    ensures r.Ok? ==>
      && PushDoc(payload, repoPolicy, rt, r.value)
      && r.value.repoPolicy == repoPolicy && r.value.repoEnvironments == environments
  {
    var ref := Field(payload, "ref", JStr(""));
    var environment := EnvironmentForPush(ref);
    var pattern :- PatternFor(repoPolicy, environment);
    var commits := CommitsOf(payload);
    var title :- (if Truthy(commits) then
                    var first :- Subscript(commits, JInt(0));
                    Get(first, "message", JStr(""))
                  else Ok(JStr("")));
    var items :- IterRecords(commits);
    var messages :- GetEach(items, "message", JStr(""));
    var body :- JoinLines(messages);
    var ticketRefs :- ExtractTicketRefs(title, JStr(body), pattern, rt);
    assert commits.JList? && items == commits.items;
    assert seq(|messages|, i requires 0 <= i < |messages| => messages[i].s)
        == seq(|items|, i requires 0 <= i < |items| => MessageOf(items[i]));
    Ok(PolicyInput(environment, ref, repoPolicy, environments, ticketRefs, [], false, false, 0))
  }

  /** The description determines the document: a push yields exactly
      the one document `PushDoc` describes, and fails when none fits. */
  lemma PushInputIff(payload: map<string, Json>, repoPolicy: Json, environments: seq<string>,
                     rt: Runtime, doc: PolicyInput)
    ensures PushInput(payload, repoPolicy, environments, rt) == Ok(doc) <==>
      PushDoc(payload, repoPolicy, rt, doc) && doc.repoPolicy == repoPolicy && doc.repoEnvironments == environments
  {
  }

  /** The fallback branch of `build_policy_input` for any other event. */
  function OtherInput(payload: map<string, Json>, repoPolicy: Json, environments: seq<string>): (r: Py<PolicyInput>)
    ensures r.Ok? ==>
      && r.value.environment == "production" && r.value.ticketRefs == [] && r.value.approvers == []
      && !r.value.tests && !r.value.signedOff && r.value.deploymentsToday == 0
      && r.value.repoPolicy == repoPolicy && r.value.repoEnvironments == environments
    ensures r.Ok? ==>
      && (Truthy(Field(payload, "ref", JNull)) ==> r.value.ref == Field(payload, "ref", JNull))
      && (!Truthy(Field(payload, "ref", JNull)) ==> r.value.ref == JStr(""))
    ensures r.Ok? <==> RulesFor(repoPolicy, "production").Ok? && RulesFor(repoPolicy, "production").value.JObj?
  {
    var given := Field(payload, "ref", JNull);
    var ref := if Truthy(given) then given else JStr("");
    var _ :- PatternFor(repoPolicy, "production");
    Ok(PolicyInput("production", ref, repoPolicy, environments, [], [], false, false, 0))
  }

  /** `build_policy_input`. */
  function BuildPolicyInput(eventName: string, payload: map<string, Json>, repoPolicy: Json,
                            repoEnvironments: Option<seq<string>>, rt: Runtime): (r: Py<PolicyInput>)
    ensures r.Ok? ==> r.value.environment in DefaultEnvironments
    ensures r.Ok? ==> r.value.repoPolicy == repoPolicy
    ensures r.Ok? ==> (r.value.repoEnvironments ==
      (if repoEnvironments.Some? && |repoEnvironments.value| > 0 then repoEnvironments.value else DefaultEnvironments))
    ensures r.Ok? && eventName == "pull_request" ==> PullRequestDoc(payload, repoPolicy, rt, r.value)
    ensures r.Ok? && eventName == "push" ==> PushDoc(payload, repoPolicy, rt, r.value)
    ensures r.Ok? && eventName != "push" && eventName != "pull_request" ==>
      && r.value.environment == "production" && r.value.ticketRefs == [] && r.value.approvers == []
      && !r.value.tests && !r.value.signedOff && r.value.deploymentsToday == 0
  {
    var environments := EnvironmentsOrDefault(repoEnvironments);
    if eventName == "pull_request" then PullRequestInput(payload, repoPolicy, environments, rt)
    else if eventName == "push" then PushInput(payload, repoPolicy, environments, rt)
    else OtherInput(payload, repoPolicy, environments)
  }

  /** The dict `process_event` returns. */
  datatype Decision = Decision(allow: bool, message: string, violations: seq<string>)

  /** `bool(allow_res)` for a bool, else the truthiness of its `result`
      entry (or of the dict itself); any other value has no `get`. */
  function AllowOf(res: Json): Py<bool> {
    match res
    case JBool(b) => Ok(b)
    case JObj(m) => Ok(Truthy(if "result" in m then m["result"] else res))
    case _ => Err(AttributeError)
  }

  function RenderEach(vs: seq<Json>, rt: Runtime): (r: seq<string>)
    ensures |r| == |vs|
  {
    seq(|vs|, i requires 0 <= i < |vs| => Str(vs[i], rt))
  }

  /** The violation strings: a list, the list under `result`, or a
      truthy non-list `result` as a singleton; otherwise none. */
  function ViolationsOf(res: Json, rt: Runtime): (r: seq<string>)
    ensures res.JList? ==> |r| == |res.items| && forall i :: 0 <= i < |r| ==> r[i] == Str(res.items[i], rt)
    ensures res.JObj? && "result" in res.fields && res.fields["result"].JList? ==>
      var xs := res.fields["result"].items;
      |r| == |xs| && forall i :: 0 <= i < |r| ==> r[i] == Str(xs[i], rt)
    ensures res.JObj? && "result" in res.fields && !res.fields["result"].JList? ==>
      (Truthy(res.fields["result"]) ==> r == [Str(res.fields["result"], rt)])
      && (!Truthy(res.fields["result"]) ==> r == [])
    ensures res.JObj? && "result" !in res.fields ==> r == []
    ensures !res.JList? && !res.JObj? ==> r == []
  {
    match res
    case JList(xs) => RenderEach(xs, rt)
    case JObj(m) =>
      if "result" !in m then []
      else if m["result"].JList? then RenderEach(m["result"].items, rt)
      else if Truthy(m["result"]) then [Str(m["result"], rt)]
      else []
    case _ => []
  }

  function PolicyFailure(message: string): Decision {
    Decision(false, "Policy evaluation error: " + message, [message])
  }

  /** `process_event`: evaluate the allow and violations entrypoints and
      combine them. Only a `PolicyError` from the evaluator is turned into
      a denial; any other exception propagates. */
  function ProcessEvent(eventName: string, payload: map<string, Json>, repoPolicy: Json,
                        entryAllow: string, entryViolations: string,
                        evaluate: (string, Json) -> Py<Json>, rt: Runtime): (r: Py<Decision>)
    ensures r.Ok? ==> (r.value.message == "Policy passed" <==> r.value.allow)
    ensures r.Ok? && r.value.allow ==> r.value.violations == []
  {
    var doc :- BuildPolicyInput(eventName, payload, repoPolicy, None, rt);
    var input := doc.ToJson();
    match evaluate(entryAllow, input)
    case Err(PolicyError(m)) => Ok(PolicyFailure(m))
    case Err(e) => Err(e)
    case Ok(allowRes) =>
      match evaluate(entryViolations, input)
      case Err(PolicyError(m)) => Ok(PolicyFailure(m))
      case Err(e) => Err(e)
      case Ok(violationsRes) =>
        var allow :- AllowOf(allowRes);
        var violations := ViolationsOf(violationsRes, rt);
        var passed := allow && violations == [];
        Ok(Decision(passed, if passed then "Policy passed" else "Policy failed", violations))
  }

  /** With the evaluator answering both entrypoints, the final decision
      allows exactly when the allow answer is truthy and no violation is
      reported; a `PolicyError` from either call denies with the error
      text as the only violation. */
  lemma ProcessEventDecision(eventName: string, payload: map<string, Json>, repoPolicy: Json,
                             entryAllow: string, entryViolations: string,
                             evaluate: (string, Json) -> Py<Json>, rt: Runtime, doc: PolicyInput)
    requires BuildPolicyInput(eventName, payload, repoPolicy, None, rt) == Ok(doc)
    ensures var r := ProcessEvent(eventName, payload, repoPolicy, entryAllow, entryViolations, evaluate, rt);
      var a := evaluate(entryAllow, doc.ToJson());
      var v := evaluate(entryViolations, doc.ToJson());
      && (a.Err? && a.error.PolicyError? ==> r == Ok(PolicyFailure(a.error.message)))
      && (a.Ok? && v.Err? && v.error.PolicyError? ==> r == Ok(PolicyFailure(v.error.message)))
      && (a.Ok? && v.Ok? && AllowOf(a.value).Ok? ==>
            r.Ok? && (r.value.allow <==> AllowOf(a.value).value && ViolationsOf(v.value, rt) == [])
            && r.value.violations == ViolationsOf(v.value, rt))
  {
  }
}

=== FILE: opawasm.dfy ===
/** `src/opawasm/main.py`: the thin opa-wasm engine with its two fixed
    entrypoints, the entrypoint normaliser and the coercions of whatever
    the runtime returns. Loading the artifact into the runtime is left
    to the caller; the loaded policy's `evaluate` is a parameter taking
    the normalised entrypoint and the input document. */
module OpaWasm {
  import opened Wrappers
  import opened Text
  import opened PyJson

  const DataPrefix: string := "data."
  const AllowEntry: string := "data.github.deploy.allow"
  const ViolationsEntry: string := "data.github.deploy.violations"

  /** `_norm_entry`: the dotted `data.` form of an entrypoint given as
      `data.a.b`, `a/b` or `a.b`. */
  function NormEntry(entry: string): (r: string)
    ensures StartsWith(r, DataPrefix)
    ensures StartsWith(entry, DataPrefix) ==> r == entry
    ensures !StartsWith(entry, DataPrefix) ==> |r| == |DataPrefix| + |entry|
  {
    if StartsWith(entry, DataPrefix) then entry
    else if IsSubstring("/", entry) then
      ReplaceCharRemovesIt(entry, '/', '.');
      DataPrefix + ReplaceAll(entry, "/", ".")
    else DataPrefix + entry
  }

  /** Normalising twice is normalising once. */
  lemma NormEntryIdempotent(entry: string)
    ensures NormEntry(NormEntry(entry)) == NormEntry(entry)
  {
  }

  /** One rule covers both unprefixed forms: every slash becomes a dot
      and `data.` is prepended (a dotted form has no slash to replace). */
  lemma NormEntryUnprefixed(entry: string)
    requires !StartsWith(entry, DataPrefix)
    ensures NormEntry(entry) == DataPrefix + ReplaceAll(entry, "/", ".")
  {
    if !IsSubstring("/", entry) {
      ReplaceAllWithoutOccurrence(entry, "/", ".");
    }
  }

  /** An unprefixed entrypoint comes out with no slash after `data.`,
      and every other character where it was. */
  lemma NormEntryDotted(entry: string)
    requires !StartsWith(entry, DataPrefix)
    ensures var tail := NormEntry(entry)[|DataPrefix|..];
      && |tail| == |entry|
      && (forall i :: 0 <= i < |tail| ==> tail[i] != '/')
      && (forall i :: 0 <= i < |tail| && entry[i] != '/' ==> tail[i] == entry[i])
  {
    NormEntryUnprefixed(entry);
    ReplaceCharRemovesIt(entry, '/', '.');
  }

  /** The `[{"result": b}]` or `[{"expressions": [{"value": b}]}]` shapes
      of a runtime answer, when the first list entry has one. */
  function ShapedBool(raw: Json): Option<bool> {
    if raw.JList? && |raw.items| > 0 && raw.items[0].JObj? then
      var item := raw.items[0].fields;
      if "result" in item && item["result"].JBool? then Some(item["result"].b)
      else
        var exprs := Field(item, "expressions", JNull);
        if exprs.JList? && |exprs.items| > 0 && exprs.items[0].JObj?
           && Field(exprs.items[0].fields, "value", JNull).JBool?
        then Some(Field(exprs.items[0].fields, "value", JNull).b)
        else None
    else None
  }

  /** `EvalResult.as_bool`. */
  function AsBool(raw: Json): (r: bool)
    ensures raw.JBool? ==> r == raw.b
    ensures !raw.JBool? && ShapedBool(raw).None? ==> r == Truthy(raw)
  {
    if raw.JBool? then raw.b
    else match ShapedBool(raw)
      case Some(b) => b
      case None => Truthy(raw)
  }

  /** `[{"result": b}, ...]` is `b`, even `false` in a non-empty (truthy) list. */
  lemma AsBoolResultShape(item: map<string, Json>, rest: seq<Json>, b: bool)
    requires "result" in item && item["result"] == JBool(b)
    ensures AsBool(JList([JObj(item)] + rest)) == b
  {
  }

  /** `[{"expressions": [{"value": b}, ...]}, ...]` is `b` when the entry
      has no boolean `result`. */
  lemma AsBoolExpressionsShape(item: map<string, Json>, rest: seq<Json>,
                               expr: map<string, Json>, more: seq<Json>, b: bool)
    requires !("result" in item && item["result"].JBool?)
    requires "expressions" in item && item["expressions"] == JList([JObj(expr)] + more)
    requires "value" in expr && expr["value"] == JBool(b)
    ensures AsBool(JList([JObj(item)] + rest)) == b
  {
  }

  /** `EvalResult.as_list`, which `PolicyEngine.violations` repeats: a
      list as it is, anything else (None included) as a singleton. */
  function AsList(raw: Json): (r: seq<Json>)
    ensures raw.JList? ==> r == raw.items
    ensures !raw.JList? ==> r == [raw]
    ensures |r| > 0 || raw == EmptyList
  {
    if raw.JList? then raw.items else [raw]
  }

  /** `PolicyEngine.evaluate`: the entrypoint is normalised first. */
  function Evaluate(policy: (string, Json) -> Py<Json>, entrypoint: string, input: Json): (r: Py<Json>)
    ensures StartsWith(entrypoint, DataPrefix) ==> r == policy(entrypoint, input)
  {
    policy(NormEntry(entrypoint), input)
  }

  /** An entrypoint given as `a/b` or `a.b` reaches the policy in its
      dotted `data.` form, so `github/deploy/allow` and
      `data.github.deploy.allow` name the same rule. */
  lemma EvaluateSlashForm(policy: (string, Json) -> Py<Json>, entry: string, input: Json)
    requires !StartsWith(entry, DataPrefix)
    ensures Evaluate(policy, entry, input) == policy(DataPrefix + ReplaceAll(entry, "/", "."), input)
  {
    NormEntryUnprefixed(entry);
  }

  /** `PolicyEngine.allow`. */
  function Allow(policy: (string, Json) -> Py<Json>, input: Json): (r: Py<bool>)
    ensures var raw := policy(AllowEntry, input);
      (r.Ok? <==> raw.Ok?) && (r.Ok? ==> r.value == AsBool(raw.value))
  {
    var raw :- Evaluate(policy, AllowEntry, input);
    Ok(AsBool(raw))
  }

  /** `PolicyEngine.violations`. */
  function Violations(policy: (string, Json) -> Py<Json>, input: Json): (r: Py<seq<Json>>)
    ensures var raw := policy(ViolationsEntry, input);
      (r.Ok? <==> raw.Ok?) && (r.Ok? ==> r.value == AsList(raw.value))
  {
    var raw :- Evaluate(policy, ViolationsEntry, input);
    Ok(AsList(raw))
  }
}

=== FILE: opawasm_cli.dfy ===
/** `src/opawasm/cli.py`: the exit codes of the `allow`, `violations`
    and `eval` commands. Building the engine and reading the input are
    given as their outcomes; printing is left out. Each command catches
    only `PolicyError`, which exits 1; any other exception escapes. */
module OpaWasmCli {
  import opened Wrappers
  import opened PyJson
  import OpaWasm

  /** How a command ends: an exit status, or an exception it does not catch. */
  datatype Exit = Code(n: int) | Uncaught(exc: Exc)

  /** `_exit_for_allow`. */
  function ExitForAllow(allowed: bool, strictExit: bool): (r: int)
    ensures !strictExit ==> r == 0
    ensures strictExit ==> (r == 0 <==> allowed) && (r != 0 ==> r == 2)
  {
    if !strictExit then 0 else if allowed then 0 else 2
  }

  /** The `except PolicyError` clause shared by the commands. */
  function Caught(e: Exc): (r: Exit)
    ensures r == Code(1) <==> e.PolicyError?
    ensures !e.PolicyError? ==> r == Uncaught(e)
  {
    if e.PolicyError? then Code(1) else Uncaught(e)
  }

  /** Building the engine (`None` when it succeeds) and reading the input. */
  function Setup(construct: Option<Exc>, readInput: Py<Json>): (r: Py<Json>)
    ensures r.Ok? <==> construct.None? && readInput.Ok?
    ensures r.Ok? ==> r.value == readInput.value
  {
    if construct.Some? then Err(construct.value) else readInput
  }

  /** `cmd_allow`. */
  function CmdAllow(construct: Option<Exc>, readInput: Py<Json>,
                    policy: (string, Json) -> Py<Json>, strictExit: bool): (r: Exit)
    ensures r.Code? ==> r.n in {0, 1, 2}
    ensures r.Uncaught? ==> !r.exc.PolicyError?
    ensures Setup(construct, readInput).Err? ==> r == Caught(Setup(construct, readInput).error)
    ensures Setup(construct, readInput).Ok? && OpaWasm.Allow(policy, readInput.value).Err? ==>
      r == Caught(OpaWasm.Allow(policy, readInput.value).error)
    ensures Setup(construct, readInput).Ok? && OpaWasm.Allow(policy, readInput.value).Ok? ==>
      r == Code(ExitForAllow(OpaWasm.Allow(policy, readInput.value).value, strictExit))
  {
    match Setup(construct, readInput)
    case Err(e) => Caught(e)
    case Ok(input) =>
      match OpaWasm.Allow(policy, input)
      case Err(e) => Caught(e)
      case Ok(allowed) => Code(ExitForAllow(allowed, strictExit))
  }

  /** `cmd_violations`: 3 for violations under strict exit, otherwise 0. */
  function CmdViolations(construct: Option<Exc>, readInput: Py<Json>,
                         policy: (string, Json) -> Py<Json>, strictExit: bool): (r: Exit)
    ensures r.Code? ==> r.n in {0, 1, 3}
    ensures r.Uncaught? ==> !r.exc.PolicyError?
    ensures Setup(construct, readInput).Err? ==> r == Caught(Setup(construct, readInput).error)
    ensures Setup(construct, readInput).Ok? && OpaWasm.Violations(policy, readInput.value).Err? ==>
      r == Caught(OpaWasm.Violations(policy, readInput.value).error)
    ensures Setup(construct, readInput).Ok? && OpaWasm.Violations(policy, readInput.value).Ok? ==>
      (r == Code(3) <==> strictExit && |OpaWasm.Violations(policy, readInput.value).value| > 0)
      && (r == Code(0) <==> !(strictExit && |OpaWasm.Violations(policy, readInput.value).value| > 0))
  {
    match Setup(construct, readInput)
    case Err(e) => Caught(e)
    case Ok(input) =>
      match OpaWasm.Violations(policy, input)
      case Err(e) => Caught(e)
      case Ok(v) => if strictExit && |v| > 0 then Code(3) else Code(0)
  }

  /** Under strict exit, a non-list answer (None included) counts as one
      violation, and only an empty list exits 0. */
  lemma StrictViolationsExitZeroOnlyOnEmptyList(construct: Option<Exc>, readInput: Py<Json>,
                                                policy: (string, Json) -> Py<Json>)
    requires construct.None? && readInput.Ok?
    requires policy(OpaWasm.ViolationsEntry, readInput.value).Ok?
    ensures CmdViolations(construct, readInput, policy, true) == Code(0) <==>
      policy(OpaWasm.ViolationsEntry, readInput.value).value == EmptyList
  {
  }

  /** `cmd_eval`: 0 once the answer is printed. */
  function CmdEval(construct: Option<Exc>, readInput: Py<Json>,
                   policy: (string, Json) -> Py<Json>, entrypoint: string): (r: Exit)
    ensures r.Code? ==> r.n in {0, 1}
    ensures Setup(construct, readInput).Err? ==> r == Caught(Setup(construct, readInput).error)
    ensures Setup(construct, readInput).Ok? && OpaWasm.Evaluate(policy, entrypoint, readInput.value).Err? ==>
      r == Caught(OpaWasm.Evaluate(policy, entrypoint, readInput.value).error)
    ensures r == Code(0) <==>
      (Setup(construct, readInput).Ok? && OpaWasm.Evaluate(policy, entrypoint, readInput.value).Ok?)
  {
    match Setup(construct, readInput)
    case Err(e) => Caught(e)
    case Ok(input) =>
      match OpaWasm.Evaluate(policy, entrypoint, input)
      case Err(e) => Caught(e)
      case Ok(_) => Code(0)
  }
}

=== FILE: pyjson.dfy ===
/** JSON-like values as the Python sources see them after `json.load`,
    with the Python operations the core applies to them: truthiness,
    `dict.get`, subscripting, the `in` operator, numeric comparison,
    `len` and `int()`. An operation Python would reject returns the
    exception it would raise instead of a value. Floats are not modelled. */
module PyJson {
  import opened Wrappers
  import opened Text

  datatype Json =
    | JNull
    | JBool(b: bool)
    | JInt(i: int)
    | JStr(s: string)
    | JList(items: seq<Json>)
    | JObj(fields: map<string, Json>)

  /** The Python exceptions the core can raise. Only `PolicyError` carries
      a message the model needs; the others stand for Python's built-in
      exception classes. */
  datatype Exc =
    | PolicyError(message: string)
    | TypeError
    | KeyError
    | AttributeError
    | IndexError
    | ValueError
    | RegexError
    | OtherError

  type Py<T> = Result<T, Exc>

  const EmptyObj: Json := JObj(map[])
  const EmptyList: Json := JList([])

  /** The parts of Python's runtime the model leaves uninterpreted: the
      `re` module (whether a pattern compiles, `re.match` at the start,
      `re.search` anywhere, `findall`), `str()` of a non-string value and
      `int()` of a string (None when Python raises ValueError). */
  datatype Runtime = Runtime(
    compiles: string -> bool,
    matchStart: (string, string) -> bool,
    search: (string, string) -> bool,
    findAll: (string, string) -> seq<string>,
    render: Json -> string,
    parseInt: string -> Option<int>)

  /** Python's `bool(v)`. */
  predicate Truthy(v: Json) {
    match v
    case JNull => false
    case JBool(b) => b
    case JInt(i) => i != 0
    case JStr(s) => |s| > 0
    case JList(xs) => |xs| > 0
    case JObj(m) => |m| > 0
  }

  /** `type(v).__name__`. */
  function TypeName(v: Json): string {
    match v
    case JNull => "NoneType"
    case JBool(_) => "bool"
    case JInt(_) => "int"
    case JStr(_) => "str"
    case JList(_) => "list"
    case JObj(_) => "dict"
  }

  /** `str(v)`: a string is itself, anything else is rendered by Python. */
  function Str(v: Json, rt: Runtime): string {
    if v.JStr? then v.s else rt.render(v)
  }

  /** `bool` is a subclass of `int` in Python. */
  predicate IsNumber(v: Json) {
    v.JInt? || v.JBool?
  }

  function Num(v: Json): int
    requires IsNumber(v)
  {
    if v.JInt? then v.i else if v.b then 1 else 0
  }

  /** `a > b` where `b` is a number: only a number compares with it. */
  function Gt(a: Json, b: Json): (r: Py<bool>)
    requires IsNumber(b)
    ensures r.Ok? <==> IsNumber(a)
    ensures r.Err? ==> r.error == TypeError
    ensures r.Ok? ==> (r.value <==> Num(a) > Num(b))
  {
    if IsNumber(a) then Ok(Num(a) > Num(b)) else Err(TypeError)
  }

  /** `len(v)`. */
  function Len(v: Json): Py<nat> {
    match v
    case JStr(s) => Ok(|s|)
    case JList(xs) => Ok(|xs|)
    case JObj(m) => Ok(|m|)
    case _ => Err(TypeError)
  }

  /** `d.get(key, default)` on a dict typed `Dict[str, Any]`. */
  function Field(d: map<string, Json>, key: string, default: Json): Json {
    if key in d then d[key] else default
  }

  /** `v.get(key, default)` on a value that is only a dict by convention:
      anything else has no `get` attribute. */
  function Get(v: Json, key: string, default: Json): (r: Py<Json>)
    ensures r.Ok? <==> v.JObj?
    ensures r.Err? ==> r.error == AttributeError
    ensures r.Ok? ==> r.value == Field(v.fields, key, default)
  {
    if v.JObj? then Ok(Field(v.fields, key, default)) else Err(AttributeError)
  }

  /** Lists and dicts cannot be dict keys. */
  predicate Hashable(v: Json) {
    !(v.JList? || v.JObj?)
  }

  /** Python's `==` on JSON values: `True == 1` and `False == 0`, and
      containers compare element by element. */
  predicate PyEq(a: Json, b: Json)
    decreases a
  {
    if IsNumber(a) && IsNumber(b) then Num(a) == Num(b)
    else match a
      case JList(xs) =>
        b.JList? && |xs| == |b.items| && forall i :: 0 <= i < |xs| ==> PyEq(xs[i], b.items[i])
      case JObj(m) =>
        b.JObj? && m.Keys == b.fields.Keys && forall k :: k in m ==> PyEq(m[k], b.fields[k])
      case _ => a == b
  }

  /** `x in c`. */
  function Contains(c: Json, x: Json): (r: Py<bool>)
    ensures r.Ok? <==> (c.JList? || (c.JObj? && Hashable(x)) || (c.JStr? && x.JStr?))
  {
    match c
    case JObj(m) =>
      if !Hashable(x) then Err(TypeError)
      else Ok(x.JStr? && x.s in m)
    case JList(xs) => Ok(exists i :: 0 <= i < |xs| && PyEq(x, xs[i]))
    case JStr(s) => if x.JStr? then Ok(IsSubstring(x.s, s)) else Err(TypeError)
    case _ => Err(TypeError)
  }

  /** Membership of a string in a list is plain membership. */
  lemma ContainsStringInList(xs: seq<Json>, s: string)
    ensures Contains(JList(xs), JStr(s)) == Ok(JStr(s) in xs)
  {
    if JStr(s) in xs {
      var i :| 0 <= i < |xs| && xs[i] == JStr(s);
      assert PyEq(JStr(s), xs[i]);
    }
  }

  /** Python's index of a list or string, negative indices counting from the end. */
  function ListIndex(n: nat, i: int): (r: Option<nat>)
    ensures r.Some? <==> -(n as int) <= i < n
    ensures r.Some? ==> r.value < n && (r.value == i || r.value == n + i)
  {
    if 0 <= i < n then Some(i) else if -(n as int) <= i < 0 then Some(n + i) else None
  }

  /** `c[k]`. */
  function Subscript(c: Json, k: Json): (r: Py<Json>)
    ensures c.JObj? && k.JStr? && k.s in c.fields ==> r == Ok(c.fields[k.s])
    ensures k.JStr? && r.Ok? ==> c.JObj? && k.s in c.fields
  {
    match c
    case JObj(m) =>
      if !Hashable(k) then Err(TypeError)
      else if k.JStr? && k.s in m then Ok(m[k.s])
      else Err(KeyError)
    case JList(xs) =>
      if !IsNumber(k) then Err(TypeError)
      else (match ListIndex(|xs|, Num(k))
            case Some(j) => Ok(xs[j])
            case None => Err(IndexError))
    case JStr(s) =>
      if !IsNumber(k) then Err(TypeError)
      else (match ListIndex(|s|, Num(k))
            case Some(j) => Ok(JStr([s[j]]))
            case None => Err(IndexError))
    case _ => Err(TypeError)
  }

  /** `int(v)` for the value types JSON yields. */
  function ToInt(v: Json, rt: Runtime): Py<int> {
    match v
    case JInt(i) => Ok(i)
    case JBool(b) => Ok(if b then 1 else 0)
    case JStr(s) => (match rt.parseInt(s) case Some(n) => Ok(n) case None => Err(ValueError))
    case _ => Err(TypeError)
  }

  /** Iterating a truthy value whose elements the caller then treats as
      dicts: a list yields its items; a non-empty string or dict yields
      strings, whose `.get` fails at once; anything else is not iterable. */
  function IterRecords(v: Json): (r: Py<seq<Json>>)
    ensures v.JList? ==> r == Ok(v.items)
  {
    match v
    case JList(xs) => Ok(xs)
    case JObj(m) => if |m| == 0 then Ok([]) else Err(AttributeError)
    case JStr(s) => if |s| == 0 then Ok([]) else Err(AttributeError)
    case _ => Err(TypeError)
  }
}

=== FILE: text.dfy ===
/** The string operations the Python sources use: `startswith`,
    `endswith`, the `in` substring test, `replace`, `lower`, `strip`
    emptiness and `join`. Strings are sequences of characters. */
module Text {

  predicate StartsWith(s: string, prefix: string) {
    |prefix| <= |s| && s[..|prefix|] == prefix
  }

  predicate EndsWith(s: string, suffix: string) {
    |suffix| <= |s| && s[|s| - |suffix|..] == suffix
  }

  /** Python's `part in s` for two strings. */
  predicate IsSubstring(part: string, s: string)
    decreases |s|
  {
    StartsWith(s, part) || (|s| > 0 && IsSubstring(part, s[1..]))
  }

  /** `s.replace(pat, rep)`: every non-overlapping occurrence of `pat`,
      scanning left to right, is replaced by `rep`. */
  function ReplaceAll(s: string, pat: string, rep: string): (r: string)
    requires |pat| > 0
    decreases |s|
  {
    if StartsWith(s, pat) then rep + ReplaceAll(s[|pat|..], pat, rep)
    else if |s| == 0 then ""
    else [s[0]] + ReplaceAll(s[1..], pat, rep)
  }

  /** A string without the pattern comes out of `replace` unchanged. */
  lemma {:induction false} ReplaceAllWithoutOccurrence(s: string, pat: string, rep: string)
    requires |pat| > 0
    requires !IsSubstring(pat, s)
    ensures ReplaceAll(s, pat, rep) == s
    decreases |s|
  {
    if |s| > 0 {
      ReplaceAllWithoutOccurrence(s[1..], pat, rep);
      assert s == [s[0]] + s[1..];
    }
  }

  /** Replacing one character by another keeps the length and leaves no
      occurrence of the replaced character. */
  lemma {:induction false} ReplaceCharRemovesIt(s: string, a: char, b: char)
    requires a != b
    ensures |ReplaceAll(s, [a], [b])| == |s|
    ensures forall i :: 0 <= i < |s| ==> ReplaceAll(s, [a], [b])[i] != a
    ensures forall i :: 0 <= i < |s| && s[i] != a ==> ReplaceAll(s, [a], [b])[i] == s[i]
    decreases |s|
  {
    if |s| > 0 {
      ReplaceCharRemovesIt(s[1..], a, b);
      var rest := ReplaceAll(s[1..], [a], [b]);
      if StartsWith(s, [a]) {
        assert ReplaceAll(s, [a], [b]) == [b] + rest;
      } else {
        assert ReplaceAll(s, [a], [b]) == [s[0]] + rest;
      }
    }
  }

  /** ASCII case folding of one character, as `str.lower` does on ASCII. */
  function LowerChar(c: char): char {
    if 'A' <= c <= 'Z' then (c as int + 32) as char else c
  }

  function Lower(s: string): (r: string)
    ensures |r| == |s|
    ensures forall i :: 0 <= i < |s| ==> r[i] == LowerChar(s[i])
  {
    seq(|s|, i requires 0 <= i < |s| => LowerChar(s[i]))
  }

  /** The characters Python's `str.isspace` accepts. */
  predicate IsSpace(c: char) {
    || c == ' ' || '\t' <= c <= '\r' || '\U{1C}' <= c <= '\U{1F}'
    || c == '\U{85}' || c == '\U{A0}' || c == '\U{1680}'
    || '\U{2000}' <= c <= '\U{200A}' || c == '\U{2028}' || c == '\U{2029}'
    || c == '\U{202F}' || c == '\U{205F}' || c == '\U{3000}'
  }

  /** `s.strip()` is empty exactly when every character is whitespace. */
  predicate IsBlank(s: string) {
    forall i :: 0 <= i < |s| ==> IsSpace(s[i])
  }

  /** `sep.join(parts)`. */
  function Join(sep: string, parts: seq<string>): string
    decreases |parts|
  {
    if |parts| == 0 then ""
    else if |parts| == 1 then parts[0]
    else parts[0] + sep + Join(sep, parts[1..])
  }

  /** Lexicographic `<=` on strings, as Python orders `str`. */
  predicate LessEq(a: string, b: string)
    decreases |a|
  {
    |a| == 0 || (|b| > 0 && (a[0] < b[0] || (a[0] == b[0] && LessEq(a[1..], b[1..]))))
  }
}

=== FILE: validate_policy.dfy ===
/** The fallback rule checker of `scripts/validate_policy.py`: six
    independent checks over an input document and the rules of one
    environment, each contributing at most one tagged violation, and the
    decision `allowed` derived from the violation list. */
module FallbackValidator {
  import opened Wrappers
  import opened Text
  import opened PyJson

  /** The six checks, named after the tag of the violation they produce. */
  datatype Check = Approvals | Branch | Ticket | Tests | Signoff | RateLimit

  /** The order in which the checks run and report. */
  const Order: seq<Check> := [Approvals, Branch, Ticket, Tests, Signoff, RateLimit]

  function Rank(c: Check): nat {
    match c
    case Approvals => 0
    case Branch => 1
    case Ticket => 2
    case Tests => 3
    case Signoff => 4
    case RateLimit => 5
  }

  /** The bracketed tag that starts each violation message. */
  function Code(c: Check): string {
    match c
    case Approvals => "approvals.insufficient"
    case Branch => "ref.denied"
    case Ticket => "ticket.missing"
    case Tests => "tests.failed"
    case Signoff => "signoff.missing"
    case RateLimit => "rate_limit.exceeded"
  }

  /** A violation with the values its message interpolates. */
  datatype Violation =
    | ApprovalsInsufficient(required: Json, got: nat)
    | RefDenied(branch: string, allowed: Json)
    | TicketMissing(pattern: Json)
    | TestsFailed
    | SignoffMissing
    | RateLimitExceeded(today: Json, limit: Json)
  {
    function Kind(): Check {
      match this
      case ApprovalsInsufficient(_, _) => Approvals
      case RefDenied(_, _) => Branch
      case TicketMissing(_) => Ticket
      case TestsFailed => Tests
      case SignoffMissing => Signoff
      case RateLimitExceeded(_, _) => RateLimit
    }
  }

  const HeadsPrefix: string := "refs/heads/"

  /** `_valid_ticket`: a missing or empty ticket is invalid, an empty
      pattern accepts any ticket, a pattern that does not compile rejects
      it; otherwise the pattern must match at the start of the ticket.
      Only `re.error` is caught: a non-string operand raises. */
  function ValidTicket(ticket: Json, pattern: Json, rt: Runtime): (r: Py<bool>)
    ensures !Truthy(ticket) ==> r == Ok(false)
    ensures Truthy(ticket) && !Truthy(pattern) ==> r == Ok(true)
    ensures Truthy(ticket) && pattern.JStr? && |pattern.s| > 0 && !rt.compiles(pattern.s) ==> r == Ok(false)
    ensures r == Ok(true) ==> Truthy(ticket)
    ensures r.Err? ==> r.error == TypeError
  {
    if !Truthy(ticket) then Ok(false)
    else if !Truthy(pattern) then Ok(true)
    else if !pattern.JStr? then Err(TypeError)
    else if !rt.compiles(pattern.s) then Ok(false)
    else if !ticket.JStr? then Err(TypeError)
    else Ok(rt.matchStart(pattern.s, ticket.s))
  }

  /** Rule 1: enough approvers, counting list entries (duplicates too). */
  function CheckApprovals(input: map<string, Json>, rules: Json): Py<Option<Violation>> {
    var required :- Get(rules, "approvals_required", JInt(0));
    var positive :- Gt(required, JInt(0));
    if !positive then Ok(None)
    else
      var got :- Len(Field(input, "approvers", EmptyList));
      if Num(required) > got then Ok(Some(ApprovalsInsufficient(required, got))) else Ok(None)
  }

  /** Rule 2: a branch ref, with every `refs/heads/` removed, must be in
      the allowed list; no list, or a ref that is not a branch, passes. */
  function CheckBranch(input: map<string, Json>, rules: Json): Py<Option<Violation>> {
    var allowed :- Get(rules, "allowed_branches", JNull);
    if allowed == JNull then Ok(None)
    else
      var ref := Field(input, "ref", JStr(""));
      if Field(input, "ref_type", JStr("")) != JStr("branch") then Ok(None)
      else if !ref.JStr? then Err(AttributeError)
      else
        var branch := ReplaceAll(ref.s, HeadsPrefix, "");
        var present :- Contains(allowed, JStr(branch));
        if present then Ok(None) else Ok(Some(RefDenied(branch, allowed)))
  }

  /** Rule 3: a required ticket must be valid for the pattern. */
  function CheckTicket(input: map<string, Json>, rules: Json, rt: Runtime): Py<Option<Violation>> {
    var required :- Get(rules, "require_ticket", JNull);
    if !Truthy(required) then Ok(None)
    else
      var pattern :- Get(rules, "ticket_pattern", JStr(""));
      var valid :- ValidTicket(Field(input, "ticket_id", JStr("")), pattern, rt);
      if valid then Ok(None) else Ok(Some(TicketMissing(pattern)))
  }

  /** Rule 4: required tests must be reported as passed (truthy). */
  function CheckTests(input: map<string, Json>, rules: Json): Py<Option<Violation>> {
    var required :- Get(rules, "tests_passed", JNull);
    if !Truthy(required) then Ok(None)
    else
      var tests :- Get(Field(input, "checks", EmptyObj), "tests", JBool(false));
      if Truthy(tests) then Ok(None) else Ok(Some(TestsFailed))
  }

  /** Rule 5: a required sign-off must be present (truthy). */
  function CheckSignoff(input: map<string, Json>, rules: Json): Py<Option<Violation>> {
    var required :- Get(rules, "signed_off", JNull);
    if !Truthy(required) then Ok(None)
    else if Truthy(Field(input, "signed_off", JBool(false))) then Ok(None)
    else Ok(Some(SignoffMissing))
  }

  /** Rule 6: a positive daily limit must not be exceeded. */
  function CheckRateLimit(input: map<string, Json>, rules: Json): Py<Option<Violation>> {
    var limit :- Get(rules, "max_deployments_per_day", JInt(0));
    var positive :- Gt(limit, JInt(0));
    if !positive then Ok(None)
    else
      var today := Field(input, "deployments_today", JInt(0));
      var over :- Gt(today, limit);
      if over then Ok(Some(RateLimitExceeded(today, limit))) else Ok(None)
  }

  /** One check; a violation it reports carries that check's tag. */
  function RunCheck(c: Check, input: map<string, Json>, rules: Json, rt: Runtime): (r: Py<Option<Violation>>)
    ensures r.Ok? && r.value.Some? ==> r.value.value.Kind() == c
  {
    match c
    case Approvals => CheckApprovals(input, rules)
    case Branch => CheckBranch(input, rules)
    case Ticket => CheckTicket(input, rules, rt)
    case Tests => CheckTests(input, rules)
    case Signoff => CheckSignoff(input, rules)
    case RateLimit => CheckRateLimit(input, rules)
  }

  function OptionToSeq(o: Option<Violation>): seq<Violation> {
    if o.Some? then [o.value] else []
  }

  /** Runs the checks in order and appends what they report; the first
      exception stops the run. */
  function RunChecks(cs: seq<Check>, input: map<string, Json>, rules: Json, rt: Runtime): Py<seq<Violation>>
    decreases |cs|
  {
    if |cs| == 0 then Ok([])
    else
      var first :- RunCheck(cs[0], input, rules, rt);
      var rest :- RunChecks(cs[1..], input, rules, rt);
      Ok(OptionToSeq(first) + rest)
  }

  /** `_check_rules`. */
  function CheckRules(input: map<string, Json>, rules: Json, rt: Runtime): Py<seq<Violation>> {
    RunChecks(Order, input, rules, rt)
  }

  predicate ChecksOrdered(cs: seq<Check>) {
    forall i, j :: 0 <= i < j < |cs| ==> Rank(cs[i]) < Rank(cs[j])
  }

  /** Tags strictly increase along the list: at most one per check, in
      the order of `Order`. */
  predicate ViolationsOrdered(vs: seq<Violation>) {
    forall i, j :: 0 <= i < j < |vs| ==> Rank(vs[i].Kind()) < Rank(vs[j].Kind())
  }

  predicate HasKind(vs: seq<Violation>, c: Check) {
    exists i :: 0 <= i < |vs| && vs[i].Kind() == c
  }

  /** A successful run reports no more violations than checks, each
      from one of them, and every check in the list ran without raising. */
  lemma {:induction false} RunChecksBounded(cs: seq<Check>, input: map<string, Json>, rules: Json, rt: Runtime)
    requires RunChecks(cs, input, rules, rt).Ok?
    ensures var vs := RunChecks(cs, input, rules, rt).value;
      && |vs| <= |cs|
      && (forall i :: 0 <= i < |vs| ==> vs[i].Kind() in cs)
      && (forall i :: 0 <= i < |cs| ==> RunCheck(cs[i], input, rules, rt).Ok?)
    decreases |cs|
  {
    if |cs| > 0 {
      var first := RunCheck(cs[0], input, rules, rt).value;
      RunChecksBounded(cs[1..], input, rules, rt);
      var rest := RunChecks(cs[1..], input, rules, rt).value;
      var vs := RunChecks(cs, input, rules, rt).value;
      assert vs == OptionToSeq(first) + rest;
      forall i | 0 <= i < |vs|
        ensures vs[i].Kind() in cs
      {
        if first.Some? && i == 0 {
        } else {
          assert vs[i] == rest[i - |OptionToSeq(first)|];
          assert vs[i].Kind() in cs[1..];
        }
      }
      forall i | 0 <= i < |cs|
        ensures RunCheck(cs[i], input, rules, rt).Ok?
      {
        if i > 0 {
          assert cs[i] == cs[1..][i - 1];
        }
      }
    }
  }

  /** A violation ranked below everything after it keeps the list ordered. */
  lemma OrderedCons(v: Violation, rest: seq<Violation>)
    requires ViolationsOrdered(rest)
    requires forall i :: 0 <= i < |rest| ==> Rank(v.Kind()) < Rank(rest[i].Kind())
    ensures ViolationsOrdered([v] + rest)
  {
    var vs := [v] + rest;
    forall i, j | 0 <= i < j < |vs|
      ensures Rank(vs[i].Kind()) < Rank(vs[j].Kind())
    {
      assert vs[j] == rest[j - 1];
      if i > 0 {
        assert vs[i] == rest[i - 1];
      }
    }
  }

  /** Checks run in increasing rank report violations in increasing rank. */
  lemma {:induction false} RunChecksOrdered(cs: seq<Check>, input: map<string, Json>, rules: Json, rt: Runtime)
    requires RunChecks(cs, input, rules, rt).Ok?
    requires ChecksOrdered(cs)
    ensures ViolationsOrdered(RunChecks(cs, input, rules, rt).value)
    decreases |cs|
  {
    if |cs| > 0 {
      var first := RunCheck(cs[0], input, rules, rt).value;
      assert ChecksOrdered(cs[1..]);
      RunChecksOrdered(cs[1..], input, rules, rt);
      var rest := RunChecks(cs[1..], input, rules, rt).value;
      assert RunChecks(cs, input, rules, rt).value == OptionToSeq(first) + rest;
      if first.Some? {
        RunChecksBounded(cs[1..], input, rules, rt);
        forall i | 0 <= i < |rest|
          ensures Rank(first.value.Kind()) < Rank(rest[i].Kind())
        {
          var m :| 0 <= m < |cs[1..]| && cs[1..][m] == rest[i].Kind();
          assert cs[m + 1] == rest[i].Kind();
        }
        OrderedCons(first.value, rest);
      } else {
        assert OptionToSeq(first) + rest == rest;
      }
    }
  }

  /** A tag occurs in a concatenation iff it occurs in one of the parts. */
  lemma HasKindAppend(a: seq<Violation>, b: seq<Violation>, c: Check)
    ensures HasKind(a + b, c) <==> HasKind(a, c) || HasKind(b, c)
  {
    if HasKind(a + b, c) {
      var i :| 0 <= i < |a + b| && (a + b)[i].Kind() == c;
      if i >= |a| {
        assert b[i - |a|] == (a + b)[i];
      }
    }
    if HasKind(b, c) {
      var i :| 0 <= i < |b| && b[i].Kind() == c;
      assert (a + b)[|a| + i] == b[i];
    }
    if HasKind(a, c) {
      var i :| 0 <= i < |a| && a[i].Kind() == c;
      assert (a + b)[i] == a[i];
    }
  }

  /** A check's tag appears in a successful run exactly when that check fired. */
  lemma {:induction false} RunChecksFired(cs: seq<Check>, input: map<string, Json>, rules: Json, rt: Runtime, c: Check)
    requires RunChecks(cs, input, rules, rt).Ok?
    requires c in cs
    ensures RunCheck(c, input, rules, rt).Ok?
    ensures RunCheck(c, input, rules, rt).value.Some? <==> HasKind(RunChecks(cs, input, rules, rt).value, c)
    decreases |cs|
  {
    var first := RunCheck(cs[0], input, rules, rt).value;
    var rest := RunChecks(cs[1..], input, rules, rt).value;
    assert RunChecks(cs, input, rules, rt).value == OptionToSeq(first) + rest;
    HasKindAppend(OptionToSeq(first), rest, c);
    if first.Some? {
      assert OptionToSeq(first)[0] == first.value;
    }
    assert HasKind(OptionToSeq(first), c) <==> first.Some? && cs[0] == c;
    if c in cs[1..] {
      RunChecksFired(cs[1..], input, rules, rt, c);
    } else {
      RunChecksBounded(cs[1..], input, rules, rt);
      assert !HasKind(rest, c);
    }
  }

  /** The run fails with the exception of the first check in order that
      raises, and with no other. */
  lemma {:induction false} RunChecksFirstException(cs: seq<Check>, input: map<string, Json>, rules: Json, rt: Runtime, e: Exc)
    ensures RunChecks(cs, input, rules, rt) == Err(e) <==>
      exists i :: 0 <= i < |cs| && RunCheck(cs[i], input, rules, rt) == Err(e)
        && forall j :: 0 <= j < i ==> RunCheck(cs[j], input, rules, rt).Ok?
    decreases |cs|
  {
    if |cs| > 0 {
      RunChecksFirstException(cs[1..], input, rules, rt, e);
      var r0 := RunCheck(cs[0], input, rules, rt);
      if r0.Ok? {
        if exists i :: 0 <= i < |cs| && RunCheck(cs[i], input, rules, rt) == Err(e)
             && forall j :: 0 <= j < i ==> RunCheck(cs[j], input, rules, rt).Ok? {
          var i :| 0 <= i < |cs| && RunCheck(cs[i], input, rules, rt) == Err(e)
             && forall j :: 0 <= j < i ==> RunCheck(cs[j], input, rules, rt).Ok?;
          assert i > 0;
          assert RunCheck(cs[1..][i - 1], input, rules, rt) == Err(e);
          forall j | 0 <= j < i - 1
            ensures RunCheck(cs[1..][j], input, rules, rt).Ok?
          {
            assert cs[1..][j] == cs[j + 1];
          }
        }
        if RunChecks(cs[1..], input, rules, rt) == Err(e) {
          var i :| 0 <= i < |cs[1..]| && RunCheck(cs[1..][i], input, rules, rt) == Err(e)
             && forall j :: 0 <= j < i ==> RunCheck(cs[1..][j], input, rules, rt).Ok?;
          assert RunCheck(cs[i + 1], input, rules, rt) == Err(e);
          forall j | 0 <= j < i + 1
            ensures RunCheck(cs[j], input, rules, rt).Ok?
          {
            if j > 0 {
              assert cs[j] == cs[1..][j - 1];
            }
          }
        }
      } else {
        if RunChecks(cs, input, rules, rt) == Err(e) {
          assert RunCheck(cs[0], input, rules, rt) == Err(e);
        }
      }
    }
  }

  lemma OrderIsOrdered()
    ensures ChecksOrdered(Order)
    ensures forall c: Check :: c in Order
  {
    forall c: Check
      ensures c in Order
    {
      assert Order[Rank(c)] == c;
    }
  }

  /** `_check_rules` reports at most six violations, at most one per
      tag, always in the order approvals, branch, ticket, tests,
      sign-off, rate limit. */
  lemma CheckRulesShape(input: map<string, Json>, rules: Json, rt: Runtime)
    requires CheckRules(input, rules, rt).Ok?
    ensures var vs := CheckRules(input, rules, rt).value;
      && |vs| <= 6
      && ViolationsOrdered(vs)
      && (forall i, j :: 0 <= i < j < |vs| ==> vs[i].Kind() != vs[j].Kind())
      && (forall c :: RunCheck(c, input, rules, rt).Ok?
            && (RunCheck(c, input, rules, rt).value.Some? <==> HasKind(vs, c)))
  {
    OrderIsOrdered();
    RunChecksBounded(Order, input, rules, rt);
    RunChecksOrdered(Order, input, rules, rt);
    forall c
      ensures RunCheck(c, input, rules, rt).Ok?
      ensures RunCheck(c, input, rules, rt).value.Some? <==> HasKind(CheckRules(input, rules, rt).value, c)
    {
      RunChecksFired(Order, input, rules, rt, c);
    }
  }

  /** `approvals.insufficient` fires exactly when a positive number of
      approvals is required and the approver list is shorter. */
  lemma ApprovalsInsufficientIff(input: map<string, Json>, rules: Json, rt: Runtime)
    requires CheckRules(input, rules, rt).Ok?
    ensures rules.JObj?
    ensures var required := Field(rules.fields, "approvals_required", JInt(0));
      var approvers := Len(Field(input, "approvers", EmptyList));
      HasKind(CheckRules(input, rules, rt).value, Approvals) <==>
        IsNumber(required) && Num(required) > 0 && approvers.Ok? && approvers.value < Num(required)
  {
    CheckRulesShape(input, rules, rt);
  }

  /** `ref.denied` fires only for a configured list and a branch ref,
      and then exactly when the ref stripped of `refs/heads/` is not in
      the list. */
  lemma RefDeniedIff(input: map<string, Json>, rules: Json, rt: Runtime)
    requires CheckRules(input, rules, rt).Ok?
    ensures rules.JObj?
    ensures var allowed := Field(rules.fields, "allowed_branches", JNull);
      var ref := Field(input, "ref", JStr(""));
      HasKind(CheckRules(input, rules, rt).value, Branch) <==>
        && allowed != JNull
        && Field(input, "ref_type", JStr("")) == JStr("branch")
        && ref.JStr?
        && Contains(allowed, JStr(ReplaceAll(ref.s, HeadsPrefix, ""))) == Ok(false)
  {
    CheckRulesShape(input, rules, rt);
  }

  /** With a list of branch names, the test is plain list membership;
      a ref already given as a bare name without `refs/heads/` is used as is. */
  lemma RefDeniedForBranchList(input: map<string, Json>, rules: Json, rt: Runtime, names: seq<Json>, branch: string)
    requires rules.JObj? && Field(rules.fields, "allowed_branches", JNull) == JList(names)
    requires Field(input, "ref_type", JStr("")) == JStr("branch")
    requires Field(input, "ref", JStr("")) == JStr(HeadsPrefix + branch)
    requires !IsSubstring(HeadsPrefix, branch)
    requires CheckRules(input, rules, rt).Ok?
    ensures HasKind(CheckRules(input, rules, rt).value, Branch) <==> JStr(branch) !in names
  {
    RefDeniedIff(input, rules, rt);
    StripHeads(branch);
    ContainsStringInList(names, branch);
  }

  /** Removing `refs/heads/` from `refs/heads/B` gives back `B` when `B`
      holds no further occurrence. */
  lemma StripHeads(branch: string)
    requires !IsSubstring(HeadsPrefix, branch)
    ensures ReplaceAll(HeadsPrefix + branch, HeadsPrefix, "") == branch
  {
    var ref := HeadsPrefix + branch;
    assert ref[..|HeadsPrefix|] == HeadsPrefix;
    assert ref[|HeadsPrefix|..] == branch;
    ReplaceAllWithoutOccurrence(branch, HeadsPrefix, "");
  }

  /** `ticket.missing` fires exactly when a ticket is required and
      `_valid_ticket` rejects the ticket. */
  lemma TicketMissingIff(input: map<string, Json>, rules: Json, rt: Runtime)
    requires CheckRules(input, rules, rt).Ok?
    ensures rules.JObj?
    ensures HasKind(CheckRules(input, rules, rt).value, Ticket) <==>
      Truthy(Field(rules.fields, "require_ticket", JNull))
      && ValidTicket(Field(input, "ticket_id", JStr("")), Field(rules.fields, "ticket_pattern", JStr("")), rt) == Ok(false)
  {
    CheckRulesShape(input, rules, rt);
  }

  /** `tests.failed` and `signoff.missing` fire when the rule flag is
      truthy and the reported value is missing or falsy. */
  lemma TestsAndSignoffIff(input: map<string, Json>, rules: Json, rt: Runtime)
    requires CheckRules(input, rules, rt).Ok?
    ensures rules.JObj?
    ensures Truthy(Field(rules.fields, "tests_passed", JNull)) ==> Field(input, "checks", EmptyObj).JObj?
    ensures HasKind(CheckRules(input, rules, rt).value, Tests) <==>
      Truthy(Field(rules.fields, "tests_passed", JNull))
      && !Truthy(Field(Field(input, "checks", EmptyObj).fields, "tests", JBool(false)))
    ensures HasKind(CheckRules(input, rules, rt).value, Signoff) <==>
      Truthy(Field(rules.fields, "signed_off", JNull))
      && !Truthy(Field(input, "signed_off", JBool(false)))
  {
    CheckRulesShape(input, rules, rt);
  }

  /** `rate_limit.exceeded` fires exactly when a positive limit is set
      and today's count is strictly above it; equal to the limit passes. */
  lemma RateLimitIff(input: map<string, Json>, rules: Json, rt: Runtime)
    requires CheckRules(input, rules, rt).Ok?
    ensures rules.JObj?
    ensures var limit := Field(rules.fields, "max_deployments_per_day", JInt(0));
      var today := Field(input, "deployments_today", JInt(0));
      HasKind(CheckRules(input, rules, rt).value, RateLimit) <==>
        IsNumber(limit) && Num(limit) > 0 && IsNumber(today) && Num(today) > Num(limit)
  {
    CheckRulesShape(input, rules, rt);
  }

  /** One entry of the `violations` list `validate_input` returns. */
  datatype Entry =
    | Rule(violation: Violation)
    | UnknownEnvironment(env: Json)
    | ValidationError(exc: Exc)

  /** The result dict: the echoed input, the fixed timestamp on the normal
      path, and `error` on the exception path (absent, i.e. false, otherwise). */
  datatype Outcome = Outcome(
    allowed: bool,
    violations: seq<Entry>,
    input: map<string, Json>,
    timestamp: Option<string>,
    error: bool)

  const Timestamp: string := "2025-01-18T16:00:00Z"

  /** The rules of `env` if the policy data names it, None if it does not. */
  function Lookup(data: Json, env: Json): Py<Option<Json>> {
    var policy :- Get(data, "policy", EmptyObj);
    var environments :- Get(policy, "environments", EmptyObj);
    var known :- Contains(environments, env);
    if !known then Ok(None)
    else
      var p :- Subscript(data, JStr("policy"));
      var e :- Subscript(p, JStr("environments"));
      var config :- Subscript(e, env);
      var rules :- Subscript(config, JStr("rules"));
      Ok(Some(rules))
  }

  function MapRule(vs: seq<Violation>): (r: seq<Entry>)
    ensures |r| == |vs|
    ensures forall i :: 0 <= i < |vs| ==> r[i] == Rule(vs[i])
  {
    seq(|vs|, i requires 0 <= i < |vs| => Rule(vs[i]))
  }

  /** `validate_input`: the decision is true exactly when the violation
      list is empty; an exception anywhere yields a single error entry. */
  function ValidateInput(data: Json, input: map<string, Json>, rt: Runtime): (r: Outcome)
    ensures r.allowed <==> r.violations == []
    ensures r.input == input
    ensures r.error <==> r.timestamp.None?
    ensures r.error ==> |r.violations| == 1 && r.violations[0].ValidationError?
    ensures !r.error ==> forall i :: 0 <= i < |r.violations| ==> !r.violations[i].ValidationError?
  {
    var env := Field(input, "env", JStr(""));
    var attempt: Py<Option<seq<Violation>>> :=
      (var found :- Lookup(data, env);
       match found
       case None => Ok(None)
       case Some(rules) =>
         var vs :- CheckRules(input, rules, rt);
         Ok(Some(vs)));
    match attempt
    case Err(e) => Outcome(false, [ValidationError(e)], input, None, true)
    case Ok(None) => Outcome(false, [UnknownEnvironment(env)], input, Some(Timestamp), false)
    case Ok(Some(vs)) => Outcome(|vs| == 0, MapRule(vs), input, Some(Timestamp), false)
  }

  /** A known environment whose rules check without exception: the
      violations are exactly the rule violations and `allowed` says
      whether there are none. */
  lemma ValidateInputKnown(data: Json, input: map<string, Json>, rt: Runtime, rules: Json)
    requires Lookup(data, Field(input, "env", JStr(""))) == Ok(Some(rules))
    requires CheckRules(input, rules, rt).Ok?
    ensures var r := ValidateInput(data, input, rt);
      && r.violations == MapRule(CheckRules(input, rules, rt).value)
      && (r.allowed <==> CheckRules(input, rules, rt).value == [])
      && !r.error
  {
  }

  /** An environment missing from well-shaped policy data: not allowed,
      one "Unknown environment" entry, no rule checked. */
  lemma ValidateInputUnknown(data: Json, input: map<string, Json>, rt: Runtime, env: string)
    requires Field(input, "env", JStr("")) == JStr(env)
    requires data.JObj? && Field(data.fields, "policy", EmptyObj).JObj?
    requires Field(Field(data.fields, "policy", EmptyObj).fields, "environments", EmptyObj).JObj?
    requires env !in Field(Field(data.fields, "policy", EmptyObj).fields, "environments", EmptyObj).fields
    ensures var r := ValidateInput(data, input, rt);
      !r.allowed && !r.error && r.violations == [UnknownEnvironment(JStr(env))]
  {
  }

  /** Any exception while looking up or checking yields `allowed` false
      and `error` true with that exception as the only entry. */
  lemma ValidateInputException(data: Json, input: map<string, Json>, rt: Runtime, e: Exc)
    requires Lookup(data, Field(input, "env", JStr(""))) == Err(e)
      || (exists rules :: Lookup(data, Field(input, "env", JStr(""))) == Ok(Some(rules))
            && CheckRules(input, rules, rt) == Err(e))
    ensures var r := ValidateInput(data, input, rt);
      !r.allowed && r.error && r.violations == [ValidationError(e)]
  {
  }
}

=== FILE: validators.dfy ===
/** `src/utils/validators.py`: the severity and rule-data validators of
    the governance rule store. Each returns a verdict pair: valid with no
    message, or invalid with the first failing check's message. */
module Validators {
  import opened Wrappers
  import opened Text
  import opened PyJson

  /** `SEVERITY_LEVELS`, listed in sorted order as the error message shows them. */
  const SeverityLevels: seq<string> := ["critical", "high", "low", "medium"]

  /** The required rule fields, listed in sorted order. */
  const RequiredFields: seq<string> := ["description", "name", "severity"]

  const NameEmpty: string := "Rule name cannot be empty"
  const DescriptionEmpty: string := "Rule description cannot be empty"

  /** The `(is_valid, error)` pair both validators return. */
  datatype Verdict = Verdict(isValid: bool, error: Option<string>)
  {
    /** Valid exactly when there is no message. */
    predicate WellFormed() {
      isValid <==> error.None?
    }
  }

  /** Ascending order without repeats, as `sorted` of a set yields. */
  predicate StrictlySorted(xs: seq<string>) {
    forall i, j :: 0 <= i < j < |xs| ==> LessEq(xs[i], xs[j]) && xs[i] != xs[j]
  }

  lemma SeverityLevelsSorted()
    ensures StrictlySorted(SeverityLevels)
  {
    assert LessEq("critical", "high") && LessEq("critical", "low") && LessEq("critical", "medium");
    assert LessEq("high", "low") && LessEq("high", "medium");
    assert LessEq("low", "medium");
  }

  lemma RequiredFieldsSorted()
    ensures StrictlySorted(RequiredFields)
  {
    assert LessEq("description", "name") && LessEq("description", "severity");
    assert LessEq("name", "severity");
  }

  /** `validate_severity`. */
  function ValidateSeverity(severity: Json): (r: Verdict)
    ensures r.WellFormed()
    ensures !severity.JStr? ==> r == Verdict(false, Some("Severity must be a string, got " + TypeName(severity)))
    ensures severity.JStr? ==> (r.isValid <==> exists i :: 0 <= i < |SeverityLevels| && Lower(severity.s) == SeverityLevels[i])
  {
    if !severity.JStr? then Verdict(false, Some("Severity must be a string, got " + TypeName(severity)))
    else if Lower(severity.s) !in SeverityLevels then
      Verdict(false, Some("Invalid severity level: " + severity.s + ". Must be one of: " + Join(", ", SeverityLevels)))
    else Verdict(true, None)
  }

  /** Severity is checked without regard to case: two strings that fold
      to the same lower-case form are accepted or rejected together. */
  lemma SeverityIgnoresCase(s: string, t: string)
    requires Lower(s) == Lower(t)
    ensures ValidateSeverity(JStr(s)).isValid == ValidateSeverity(JStr(t)).isValid
  {
  }

  /** Every listed level is accepted in any letter case. */
  lemma SeverityAcceptsEveryLevel(s: string, i: nat)
    requires i < |SeverityLevels|
    requires Lower(s) == SeverityLevels[i]
    ensures ValidateSeverity(JStr(s)) == Verdict(true, None)
  {
  }

  /** The required fields that `keys` lacks, in the order of `required`. */
  function Missing(required: seq<string>, keys: set<string>): (r: seq<string>)
    ensures forall f :: f in r <==> f in required && f !in keys
    ensures StrictlySorted(required) ==> StrictlySorted(r)
    decreases |required|
  {
    if |required| == 0 then []
    else
      var rest := Missing(required[1..], keys);
      if required[0] in keys then rest
      else
        SortedAfterFirst(required, rest);
        [required[0]] + rest
  }

  /** Prepending the first element of a sorted list to a sorted selection
      from its tail keeps the selection sorted. */
  lemma SortedAfterFirst(required: seq<string>, rest: seq<string>)
    requires |required| > 0
    requires forall f :: f in rest ==> f in required[1..]
    requires StrictlySorted(required) ==> StrictlySorted(rest)
    ensures StrictlySorted(required) ==> StrictlySorted([required[0]] + rest)
  {
    if StrictlySorted(required) {
      var r := [required[0]] + rest;
      forall i, j | 0 <= i < j < |r|
        ensures LessEq(r[i], r[j]) && r[i] != r[j]
      {
        if i == 0 {
          assert r[j] == rest[j - 1] && rest[j - 1] in rest;
          var k :| 0 <= k < |required[1..]| && required[1..][k] == r[j];
          assert r[j] == required[k + 1];
        } else {
          assert r[i] == rest[i - 1] && r[j] == rest[j - 1];
        }
      }
    }
  }

  /** `validate_rule_data`: missing fields first, then severity, then
      the name, then the description; the first failure is reported. */
  function ValidateRuleData(ruleData: map<string, Json>): (r: Verdict)
    ensures r.WellFormed()
    ensures r.isValid <==>
      && "description" in ruleData && "name" in ruleData && "severity" in ruleData
      && ValidateSeverity(ruleData["severity"]).isValid
      && ruleData["name"].JStr? && !IsBlank(ruleData["name"].s)
      && ruleData["description"].JStr? && !IsBlank(ruleData["description"].s)
  {
    var missing := Missing(RequiredFields, ruleData.Keys);
    if |missing| > 0 then
      assert missing[0] in RequiredFields && missing[0] !in ruleData;
      Verdict(false, Some("Missing required fields: " + Join(", ", missing)))
    else
      assert "severity" in RequiredFields && "name" in RequiredFields && "description" in RequiredFields;
      var severity := ValidateSeverity(ruleData["severity"]);
      if !severity.isValid then Verdict(false, severity.error)
      else if !ruleData["name"].JStr? || IsBlank(ruleData["name"].s) then Verdict(false, Some(NameEmpty))
      else if !ruleData["description"].JStr? || IsBlank(ruleData["description"].s) then Verdict(false, Some(DescriptionEmpty))
      else Verdict(true, None)
  }

  /** A rule lacking required fields is reported by the names it lacks,
      exactly those, in sorted order without repeats, before any other
      check. */
  lemma MissingFieldsReported(ruleData: map<string, Json>, f: string)
    requires f in RequiredFields && f !in ruleData
    ensures var m := Missing(RequiredFields, ruleData.Keys);
      && ValidateRuleData(ruleData) == Verdict(false, Some("Missing required fields: " + Join(", ", m)))
      && (forall g :: g in m <==> g in RequiredFields && g !in ruleData)
      && StrictlySorted(m)
  {
    RequiredFieldsSorted();
  }

  /** With every field present, an invalid severity is reported with the
      severity validator's own message, whatever the name and description. */
  lemma SeverityCheckedBeforeText(ruleData: map<string, Json>)
    requires "description" in ruleData && "name" in ruleData && "severity" in ruleData
    requires !ValidateSeverity(ruleData["severity"]).isValid
    ensures ValidateRuleData(ruleData) == ValidateSeverity(ruleData["severity"])
  {
  }

  /** With fields present and a valid severity, a blank or non-string
      name is reported before the description is looked at. */
  lemma NameCheckedBeforeDescription(ruleData: map<string, Json>)
    requires "description" in ruleData && "name" in ruleData && "severity" in ruleData
    requires ValidateSeverity(ruleData["severity"]).isValid
    ensures !ruleData["name"].JStr? || IsBlank(ruleData["name"].s) ==>
      ValidateRuleData(ruleData) == Verdict(false, Some(NameEmpty))
    ensures ruleData["name"].JStr? && !IsBlank(ruleData["name"].s) ==>
      ValidateRuleData(ruleData) ==
        (if !ruleData["description"].JStr? || IsBlank(ruleData["description"].s)
         then Verdict(false, Some(DescriptionEmpty)) else Verdict(true, None))
  {
  }
}

=== FILE: wrappers.dfy ===
/** Failure-compatible datatypes used throughout the model: an optional
    value and a result that either carries a value or the exception the
    Python code would raise. Both work with `:-`. */
module Wrappers {

  datatype Option<+T> = None | Some(value: T) {

    /** The wrapped value, or `default` when there is none. */
    function GetOr(default: T): T {
      match this
      case Some(v) => v
      case None => default
    }
  }

  datatype Result<+T, +E> = Ok(value: T) | Err(error: E) {

    predicate IsFailure() {
      Err?
    }

    function PropagateFailure<U>(): Result<U, E>
      requires Err?
    {
      Err(error)
    }

    function Extract(): T
      requires Ok?
    {
      value
    }
  }
}
